=== FILE: README.md ===
# flight_track in Dafny

A model of the decision logic of flight_track, a trip dashboard. Its React
front end shows flight results on several globes, a parallel-coordinates
chart and cards. Its Python back end serves flights, travel advisories and
visa requirements, and classifies climate data. The model covers:

- the "worst visa requirement across passports" fold, in the two variants
  of the globe.gl globe and the d3 visa globe;
- the advisory and visa colour tables;
- the country-scope tests that decide which countries are highlighted;
- the hover filters and tooltip contents;
- the assembly of per-passport visa tables and of per-country advisories;
- the zoom-scale clamp shared by the d3 globes;
- the parallel-coordinates rows, dimensions, axis extents and labels;
- the Beaufort and sky classifiers of the climate script;
- the three FastAPI handlers and the IATA lookups;
- the passport picker's options and chip;
- the colour-scheme toggle;
- the weather card.

Everything is immutable datatypes and pure functions over `seq`, `set` and
`map`. There is one method, the visa-table assembly loop.

## Layout

One module per source file, plus two shared modules:

- `Js` (js.dfy) holds the JavaScript and Python value semantics the code
  relies on:
  - optional values;
  - JSON scalars with JavaScript truthiness and template-literal rendering;
  - `||` fallbacks;
  - ASCII case mapping;
  - decimal rendering of integers;
  - joining;
  - order-preserving filtering and subsequences.
- `Records` (records.dfy) holds a world.json feature and a trip result
  record.
- The remaining modules, by file:

  - `Visa` (visa.dfy): GlobeVisa.js, and the visa part of GlobeGL.js;
  - `Advisory` (advisory.dfy): GlobeAdvisory.js, and GlobeGL's advisory colours;
  - `Zoom` (zoom.dfy): the zoom handler of the d3 globes;
  - `GlobeGL` (globe_gl.dfy): GlobeGL.js;
  - `GlobeResults` (globe_results.dfy): GlobeResults.js;
  - `GlobeResultsCard` (globe_results_card.dfy): GlobeResultsCard.js;
  - `Pcp` (pcp.dfy): PCP.js;
  - `Weather` (weather.dfy): weather.py;
  - `WeatherCard` (weather_card.dfy): WeatherCard.js;
  - `FlightController` (flight_controller.dfy): flight_controller.py;
  - `FlightService` (flight_service.dfy): flight_service.py;
  - `Passport` (passport.dfy): Passport.js;
  - `GlobeColorSelector` (color_selector.dfy): GlobeColorSelector.js.

## How the environment is modelled

- **JSON values.** A missing or `null` JSON field is `None` (or
  `Scalar.Undefined`). `obj[undefined]` looks up the key "undefined"
  (`Records.IdKey`).
- **Numbers.** Numbers the chart computes with are reals, and `NaN`
  becomes `None`. Numbers shown as text are integers (see "Left out").
- **Exceptions.** An exception the code does not catch is an `Err`, or a
  `None` result where rendering throws:
  - the "Visa: N/A" chip on a trip without an ISO code;
  - GlobeVisa's tooltip when a passport's table is undefined;
  - `pycountry` returning `None`;
  - `iata_to_iso(None)`;
  - an airport without `country`;
  - a flight offer without `price` in the chart refresh;
  - a trip without `destination_info` on the results globe, the card globe
    and the weather card, which read `destination_info.country_name` or
    `destination_info.city_name` without `?.`;
  - a visa answer without `requirements`, which ends the fetch loop before
    `setVisaData`.
- **Fetches and randomness become parameters.**
  - The visa responses: `fetched(i)` in `Visa.AllVisaData`, `None` for a
    falsy answer. `Visa.AllVisaData` returns `None` when `visaData` keeps
    its previous value.
  - The advisory responses: a list of `(code, data)` pairs.
  - The flights response: `result` in `Pcp.Refresh`, `None` when it is
    not an array (a failed request or an error body).
  - The weather requests: `fetchTemp(i)` in `Pcp.Refresh`.
  - `Math.random()`: a `Noise` record per row.
  - `parseFloat`: a function parameter.
- **Libraries become maps.** The airportsdata and pycountry tables are
  abstract maps.
- **Loaded files become options.** The back end's loaded JSON files are
  optional maps or lists.

## Behaviour worth noting

- **Day counts in the visa fold.** In GlobeGL only a *positive* number counts
  as "visa with day limit", because 0 is falsy. A negative number is never
  mapped to "home country": `visaPriority[-1]` is `undefined`, so it never
  wins. GlobeVisa ignores every number. See `Visa.GLDominatesVisa` and
  `Visa.DayLimitOutranksHomeCountry`.
- **GlobeGL scope test.**
  - The id is not authoritative: name and id are alternatives.
  - The hover test uses `properties.NAME`, while the cap colour uses
    `properties.name` and `id`.
  - All keys share one `Set`. A feature's name can therefore match a
    record's ISO code, and its id can match a record's name.
    `GlobeGL.InScopeIff` states the exact test.
  - The cap colour is the advisory of the feature's own id, not a worst-of
    over matching records. It ignores the colour scheme.
- **GlobeGL's visa fold is never used.** GlobeGL defines
  `getWorstVisaRequirement` (GlobeGL.js:90) and a `visaData` state, but
  nothing calls the function or assigns the state, and the cap colour
  (GlobeGL.js:229-265) reads advisory data only. So there is no visa
  worst-of fill on this globe. `Visa.WorstVisaRequirementGL`,
  `Visa.GLDominatesVisa` and `Visa.DayLimitOutranksHomeCountry` describe
  that unused function for whatever tables it would be given.
- **Axis extents.** They are `d3.extent` with no widening. A column of
  equal values gets the domain `(v, v)`.
- **Failed chart refresh.** A flights response that is not an array, a
  failed weather request, or an offer without `price` each throws inside
  the `try` of PCP.js, and the `catch` only logs. So the previous chart
  data stays, and no degraded-data flag exists (`Pcp.Refresh`).

## Model

| member | source | states |
|---|---|---|
| `Js.Assign` | frontend/src/components/globe/GlobeVisa.js:69 | assigning a key already present replaces its value in place and moves no other entry; a new key is appended at the end |
| `Visa.Rank` | frontend/src/components/globe/GlobeVisa.js:26-35 | a tier's priority is its position in the `visaPriority` listing, from "unknown" at 0 to "visa required" at 7 |
| `Visa.PromoteGL` | frontend/src/components/globe/GlobeGL.js:105-112 | in GlobeGL a number competes exactly when it is positive, and then as "visa with day limit"; a string competes as the tier it labels, and not at all when it labels none |
| `Visa.PromoteVisa` | frontend/src/components/globe/GlobeVisa.js:48-53 | in GlobeVisa only a string that labels a tier competes, as that tier |
| `Visa.PromotionsDifferOnDayCounts` | frontend/src/components/globe/GlobeGL.js:108-112 | the two globes promote a requirement differently exactly when it is a positive day count; wherever GlobeVisa lets a requirement compete, GlobeGL lets it compete as the same tier |
| `Visa.TierOfLabel` | frontend/src/components/globe/GlobeVisa.js:26-35 | a string is a key of `visaPriority` exactly when it is the label of one of the eight tiers, and then it names that tier |
| `Visa.RankInjective` | frontend/src/components/globe/GlobeGL.js:92-101 | the eight priorities are pairwise distinct, so the tier order is a strict total order |
| `Visa.FoldWorst` | frontend/src/components/globe/GlobeVisa.js:48-56 | the loop that replaces the running worst only by a strictly higher tier ends with a tier at least the start, at least every candidate, and equal to the start or to one of the candidates |
| `Visa.WorstVisaRequirementGL` | frontend/src/components/globe/GlobeGL.js:90-119 | GlobeGL's result bounds every passport's requirement (a positive day count read as "visa with day limit") and is "unknown" or one of them: it is their maximum |
| `Visa.WorstVisaRequirement` | frontend/src/components/globe/GlobeVisa.js:45-59 | GlobeVisa's result is the maximum in the same sense, with numbers never counting |
| `Visa.MaxIsUnique` | frontend/src/components/globe/GlobeVisa.js:46-58 | the two properties above single out one tier, so the fold computes the maximum and nothing else |
| `Visa.WorstGLOrderIndependent` | frontend/src/components/globe/GlobeGL.js:103-116 | the worst requirement depends only on which passport tables there are, not on their order or repetition |
| `Visa.NoEntriesGiveUnknown` | frontend/src/components/globe/GlobeVisa.js:46-58 | with no passports, or no truthy entry for the country, both folds give "unknown" |
| `Visa.IgnoredEntryGL` | frontend/src/components/globe/GlobeGL.js:105-112 | adding a passport whose entry is falsy, a non-positive number or a label outside the table never changes GlobeGL's result |
| `Visa.GLDominatesVisa` | frontend/src/components/globe/GlobeGL.js:108-110 | GlobeGL never reports a lower tier than GlobeVisa, and the two agree when no passport has a number for the country |
| `Visa.DayLimitOutranksHomeCountry` | frontend/src/components/globe/GlobeGL.js:108-112 | for a 90-day passport and a home-country passport (-1), GlobeGL gives "visa with day limit" and GlobeVisa gives "unknown" |
| `Visa.VisaFill` | frontend/src/components/globe/GlobeVisa.js:127-143 | the five coloured tiers get their colours, and the neutral "#4d4c60" is used exactly for unknown, home country and visa with day limit |
| `Visa.VisaFillDistinguishesColouredTiers` | frontend/src/components/globe/GlobeVisa.js:130-140 | two tiers with the same non-neutral colour are the same tier |
| `Visa.CountryVisaFill` | frontend/src/components/globe/GlobeVisa.js:127-128 | a country is coloured only if some passport has a string requirement for it, so day counts never colour the visa globe |
| `Visa.RequirementText` | frontend/src/components/globe/GlobeVisa.js:148-154 | a falsy requirement reads "No Data", a string passes through, a positive N reads "N days of Visa Free travel", and a negative number reads "home country" |
| `Visa.DaysTextNamesCount` | frontend/src/components/globe/GlobeVisa.js:149-151 | the day count can be read back from the digits that start its text |
| `Visa.PassportLabel` | frontend/src/components/globe/GlobeVisa.js:155 | a passport is shown by its country name when that is truthy, otherwise by its code |
| `Visa.VisaTooltipLines` | frontend/src/components/globe/GlobeVisa.js:147-156 | there is one line per passport, in key order, reading "label: requirement text"; there are none exactly when some passport's table is undefined, because reading it throws |
| `Visa.VisaTooltip` | frontend/src/components/globe/GlobeVisa.js:147-157 | the hover text is the lines joined with "<br>": empty for no passports, one line for one |
| `Visa.VisaTooltipLinesSnoc` | frontend/src/components/globe/GlobeVisa.js:147-156 | adding a passport with a defined table appends its line, and only it, to the list |
| `Visa.VisaTooltipSnoc` | frontend/src/components/globe/GlobeVisa.js:157 | adding a passport appends exactly "<br>" and its line |
| `Visa.VisaHoverHtml` | frontend/src/components/globe/GlobeVisa.js:146-167 | the hover HTML opens with the country's name in bold and a line break, followed by exactly the joined passport lines; it fails exactly when some passport's table is undefined |
| `Visa.NamelessHoverShowsUndefined` | frontend/src/components/globe/GlobeVisa.js:165 | a country without a name is headed "undefined" |
| `Visa.HoverHtmlNamesCountry` | frontend/src/components/globe/GlobeVisa.js:164-166 | with the same passport lines, two countries get the same hover exactly when their names render alike |
| `Visa.SkipFailedFetch` | frontend/src/components/globe/GlobeVisa.js:67-68 | a request that returned nothing leaves the assembled tables as they are |
| `Visa.AssignFetchedTable` | frontend/src/components/globe/GlobeVisa.js:68-70 | a request that returned data sets the passport's entry to `data.requirements[code]` and keeps every other entry |
| `Visa.AssembleStep` | frontend/src/components/globe/GlobeVisa.js:66-71 | one turn of the loop turns what holds after n requests, contents and key order, into what holds after n + 1 |
| `Visa.StepKeepsKeyOrder` | frontend/src/components/globe/GlobeVisa.js:66-71 | a failed request moves no key, a new table for a known key keeps its place, and a new key goes after the keys already present, so the keys stay in the order of their first successful request |
| `Visa.AllVisaData` | frontend/src/components/globe/GlobeVisa.js:61-73 | `visaData` is left unchanged exactly when there are no passport codes or some answer lacks `requirements`; otherwise `allVisaData` has distinct keys, a passport has an entry exactly when one of its requests returned data, the entry holds the table of the last such request, and the keys stand in the order of each passport's first successful request |
| `Advisory.LevelOf` | frontend/src/components/globe/GlobeAdvisory.js:106-113 | an advice string is one of the four known levels exactly when it equals that level's text |
| `Advisory.ScopeAdvisoryColour` | frontend/src/components/globe/GlobeGL.js:254-265 | the four levels get #4CAF50, #674f82, #c07182 and #e69c67; a missing advisory or unknown advice gets "#9E9E9E" |
| `Advisory.AdvisoryFill` | frontend/src/components/globe/GlobeAdvisory.js:103-115 | the four levels get #4d4c60, #674f82, #c07182 and #e69c67; a missing advisory or unknown advice gets "#e8e8e8" |
| `Advisory.ColourTablesAgreeOnWarnings` | frontend/src/components/globe/GlobeAdvisory.js:104-115 | the two colour tables agree exactly on the three warning levels |
| `Advisory.ColourTablesSeparateLevels` | frontend/src/components/globe/GlobeAdvisory.js:105-115 | in each table, a known level's colour belongs to that level alone |
| `Advisory.AdvisoryMap` | frontend/src/components/globe/GlobeAdvisory.js:43-49 | `advisoryMap` holds a code exactly when one of its results carried data, and holds the data of the last such result |
| `Advisory.MissingCodes` | frontend/src/components/globe/GlobeAdvisory.js:46-48 | `missing` lists exactly the codes with an empty result, in input order |
| `Advisory.MissingCodesCounts` | frontend/src/components/globe/GlobeAdvisory.js:46-48 | a code appears in `missing` once for every empty result it has |
| `Advisory.ExactlyOnePlace` | frontend/src/components/globe/GlobeAdvisory.js:43-49 | when the codes are distinct, each code lands in exactly one of `advisoryMap` and `missing` |
| `Advisory.ShowsWarningChip` | frontend/src/components/globe/GlobeAdvisory.js:127 | the warning chip is shown exactly for an advisory whose advice is not "No advisory" |
| `Advisory.ShowsNoDataText` | frontend/src/components/globe/GlobeAdvisory.js:137-141 | the "No advisory data available" text is shown exactly when the country has no advisory entry, and never together with the warning chip |
| `Advisory.TooltipTitle` | frontend/src/components/globe/GlobeAdvisory.js:125 | the tooltip heading is the country name, or "Unknown Country" when it is missing or empty |
| `Advisory.TooltipMatchesFill` | frontend/src/components/globe/GlobeAdvisory.js:127-141 | the tooltip never shows both the warning chip and the "no data" text; "no data" goes with the grey fill; neither is shown exactly on countries filled "#4d4c60" |
| `Advisory.AdvisoryGlobeFills` | frontend/src/components/globe/GlobeAdvisory.js:64-65 | nothing is drawn while the advisory map is empty; otherwise each feature gets the fill of its own id's advisory |
| `Advisory.FeatureFillShowsAdvice` | frontend/src/components/globe/GlobeAdvisory.js:103-115 | once the advisory map is non-empty, a feature is filled grey exactly when its id has no advisory or an advice string outside the four, and dark exactly when its advice is "No advisory" |
| `Zoom.ZoomScale` | frontend/src/components/globe/GlobeAdvisory.js:166 | the scale is at least 100 and at most half the width when the width is at least 200; it is the unclamped value whenever that lies in range |
| `Zoom.ZoomScaleMonotone` | frontend/src/components/globe/GlobeResults.js:199 | zooming in never shrinks the globe |
| `GlobeGL.FilteredCountries` | frontend/src/components/globe/GlobeGL.js:59-76 | the set holds exactly the country names, their lower-cased forms, and the ISO codes of records that have a country name |
| `GlobeGL.InScopeIff` | frontend/src/components/globe/GlobeGL.js:243-246 | a feature is in scope exactly when some record names it ignoring case, carries its id as ISO code, or collides with it across key kinds |
| `GlobeGL.InScopeWithoutCollisions` | frontend/src/components/globe/GlobeGL.js:62-71 | when there are no cross-key collisions, the test is a case-insensitive name match or an id equal to an ISO code |
| `GlobeGL.CapColour` | frontend/src/components/globe/GlobeGL.js:229-265 | the muted "#4d4c60" appears exactly on out-of-scope features; in-scope features get the advisory table's colour, whatever the colour scheme |
| `GlobeGL.HoverTrips` | frontend/src/components/globe/GlobeGL.js:284-289 | the hover trips are the records whose country name equals the hovered NAME ignoring case, in their original order, each as often as it occurs in the data |
| `GlobeGL.DropAntarctica` | frontend/src/components/globe/GlobeGL.js:203 | features with ISO_A2 "AQ" are dropped and all others kept in order, each as often as it occurs; with no such feature the list is unchanged |
| `GlobeGL.DropAntarcticaIdempotent` | frontend/src/components/globe/GlobeGL.js:203 | dropping Antarctica from the kept features removes nothing more |
| `GlobeGL.HoverHighlighted` | frontend/src/components/globe/GlobeGL.js:277-281 | the hover's scope test is the cap's name test applied to `properties.NAME`, with no id |
| `GlobeGL.HoverScopeIff` | frontend/src/components/globe/GlobeGL.js:277-281 | a hovered country is in scope exactly when its NAME is present and some record names it ignoring case, or the NAME collides with a record's ISO code |
| `GlobeGL.BadgeColour` | frontend/src/components/globe/GlobeGL.js:297-301 | the badge is green exactly for "No advisory", amber exactly for the certain-areas advice, and red for every other string |
| `GlobeGL.BadgeMatchesCapOnlyWhenSafe` | frontend/src/components/globe/GlobeGL.js:254-301 | the badge and the cap colour agree exactly when the advice is "No advisory" |
| `GlobeGL.HoverVisaLines` | frontend/src/components/globe/GlobeGL.js:306-325 | there is at most one line per passport, each for a passport with a truthy entry; there are no lines exactly when no passport has one |
| `GlobeGL.HoverVisaLinesSnoc` | frontend/src/components/globe/GlobeGL.js:308-322 | no passports give no lines, and a passport added at the end adds its line exactly when its table has a truthy entry; so there is one line per such passport, in key order |
| `GlobeGL.HoverLinesAllTruthy` | frontend/src/components/globe/GlobeGL.js:308-322 | when every passport has a truthy entry, the hover has exactly one line per passport, in key order |
| `GlobeGL.HoverLinesMatchVisaTooltip` | frontend/src/components/globe/GlobeGL.js:308-322 | when every passport has a truthy entry, the hover lists exactly GlobeVisa's tooltip lines |
| `GlobeGL.Tooltip` | frontend/src/components/globe/GlobeGL.js:275-350 | the heading is the rendered NAME; "No trips available" appears exactly out of scope; in scope the advisory scheme shows the badge exactly when the id has an advisory, the visa scheme shows the hover visa lines, and both list the hover trips, each as a "city (IATA)" heading, with "undefined" for a missing city, and a price line "Â£" followed by the total or "N/A" |
| `GlobeGL.SchemeOnlyChangesTooltip` | frontend/src/components/globe/GlobeGL.js:295-326 | the colour scheme changes only the advisory badge and the visa lines, and each scheme shows only its own |
| `GlobeGL.TooltipTripsIff` | frontend/src/components/globe/GlobeGL.js:275-350 | an out-of-scope hover shows only "No trips available"; the trips listed are exactly the matching records |
| `GlobeResults.ResultNames` | frontend/src/components/globe/GlobeResults.js:51-53 | building the set fails exactly when some record has no `destination_info`; otherwise the set holds exactly the records' country names |
| `GlobeResults.ResultsFill` | frontend/src/components/globe/GlobeResults.js:63-66 | "#4CAF50" exactly when the feature's name is in the set, "#4d4c60" otherwise |
| `GlobeResults.CountryTrips` | frontend/src/components/globe/GlobeResults.js:73-75 | the country's trips are the records with exactly its name, in order, each as often as it occurs in the data |
| `GlobeResults.HighlightedIffTrips` | frontend/src/components/globe/GlobeResults.js:70-75 | once the name set is built, a country is highlighted exactly when it has trips |
| `GlobeResults.AdvisoryChip` | frontend/src/components/globe/GlobeResults.js:86-88 | the chip is shown exactly when the first trip's safety is truthy and is neither "None" nor "No advisory" |
| `GlobeResults.VisaChips` | frontend/src/components/globe/GlobeResults.js:103-138 | there is one chip per visaDetails entry of the first trip, or else one "Visa: N/A" chip; rendering fails exactly when there are no details and no ISO code |
| `GlobeResults.Tooltip` | frontend/src/components/globe/GlobeResults.js:68-170 | the tooltip has the hovered name and one section per trip, "city (IATA)" with a price falling back to "N/A"; it fails exactly when some record has no `destination_info` or the visa chip cannot render |
| `GlobeResults.SectionVersusGlobeGL` | frontend/src/components/globe/GlobeGL.js:335-345 | a trip's price line on the GL globe is the results globe's with a stray "Â" in front; the headings agree when the city is known, and otherwise the GL globe prefixes "undefined" |
| `GlobeResults.TooltipAgreesWithFill` | frontend/src/components/globe/GlobeResults.js:143-168 | wherever the tooltip renders, the fill could be computed too, and "No trips available" is shown, with nothing else, exactly on muted countries |
| `GlobeResultsCard.CardTooltip` | frontend/src/components/GlobeResultsCard.js:60-68 | the tooltip is the bold name followed by "Selected" or "Not Selected", according to the name set |
| `GlobeResultsCard.TooltipAgreesWithFill` | frontend/src/components/GlobeResultsCard.js:55-68 | for any set of destination names, "Selected" appears exactly where the country is green, "Not Selected" exactly where it is muted |
| `GlobeResultsCard.SelectedIffDestination` | frontend/src/components/GlobeResultsCard.js:44-46 | building the name set fails exactly when some destination has no `destination_info`; otherwise a country is selected exactly when some destination record carries its name |
| `Pcp.FindWeather` | frontend/src/components/PCP.js:48 | `find` gives the first weather entry with the destination's code, or nothing when there is none |
| `Pcp.ParsedPrice` | frontend/src/components/PCP.js:51 | A is the parsed `price.total`, and `NaN` when the total is undefined |
| `Pcp.UpdatedRow` | frontend/src/components/PCP.js:47-58 | there is no row exactly when the offer has no `price`, because reading its total throws; otherwise the row is named after the destination; A is the parsed price; B is the found temperature, or a draw in [0, 40); C, D and F lie in [0, 100), [0, 10) and [0, 15); E is 1 exactly when its draw exceeds 0.5 |
| `Pcp.WeatherData` | frontend/src/components/PCP.js:33-43 | the weather list has one entry per offer, in order, and there is none when some request failed |
| `Pcp.Refresh` | frontend/src/components/PCP.js:25-62 | the previous data stays unless the flights response is an array, every weather request succeeds and every offer has a price; then there is one row per offer, in order, named after its destination, with A its parsed price |
| `Pcp.TemperatureAlwaysFetched` | frontend/src/components/PCP.js:48-52 | every offer finds a weather entry, so B is always the temperature fetched for the first offer with the same destination |
| `Pcp.DistinctDestinationsOwnTemperature` | frontend/src/components/PCP.js:52 | with distinct destinations each row gets its own fetched temperature |
| `Pcp.Dimensions` | frontend/src/components/PCP.js:95 | the dimensions are the row keys other than "name", and there are none when there is no data |
| `Pcp.DimensionsAreValueKeys` | frontend/src/components/PCP.js:95 | the dimensions are exactly A to F, in row order |
| `Pcp.Extent` | frontend/src/components/PCP.js:100 | the extent is absent exactly when no value is defined; otherwise lo ≤ hi, every defined value lies between them, and both are attained |
| `Pcp.ExtentUnique` | frontend/src/components/PCP.js:100 | any attained pair of bounds of the defined values is the extent |
| `Pcp.ExtentOrderIndependent` | frontend/src/components/PCP.js:98-101 | the extent depends only on which values occur |
| `Pcp.AxisLabel` | frontend/src/components/PCP.js:175-195 | A to F are labelled Price, Temperature, Weather, Safety, Visa Requirements and Flight Duration; any other key that is not an inherited property name is labelled with itself |
| `Pcp.AxisLabelsDistinct` | frontend/src/components/PCP.js:175-182 | the six axes get six different labels |
| `Pcp.Chart` | frontend/src/components/PCP.js:68-108 | nothing is drawn for empty data; otherwise there is one axis per key A to F, in order, labelled and scaled to its column's extent |
| `Pcp.ExtentWithin` | frontend/src/components/PCP.js:98-101 | a column whose values all lie in [lo, hi) has an extent inside it |
| `Pcp.ChartBounded` | frontend/src/components/PCP.js:98-101 | for rows whose generated values are in range, the Weather, Safety and Flight Duration domains lie in [0, 100), [0, 10) and [0, 15) |
| `Pcp.NoiseAxesBounded` | frontend/src/components/PCP.js:53-56 | after a successful fetch, the axes of the random columns stay within their draws' ranges |
| `Pcp.LineTooltip` | frontend/src/components/PCP.js:145 | a line's tooltip is the row's name in bold, and nothing else |
| `Weather.ClassifyWind` | backend/data/weather.py:131-157 | the Beaufort number is in 0..12 and is the number of band limits the speed reaches; the name is that number's name |
| `Weather.ClassifyWindMonotone` | backend/data/weather.py:132-157 | a stronger wind never gets a lower number |
| `Weather.ClassifyWindBand` | backend/data/weather.py:132-157 | each number covers the half-open band between its limits: below 0.3 is 0, 32.7 and above is 12 |
| `Weather.BeaufortNamesDistinct` | backend/data/weather.py:131-157 | the name tells the number |
| `Weather.SkyOf` | backend/data/weather.py:183-188 | Sunny exactly when cloud cover ≤ 40 and radiation > 15; Cloudy exactly when cloud cover > 70 and radiation < 10; otherwise Partly Cloudy |
| `Weather.ClassifyWeather` | backend/data/weather.py:182-198 | the description starts with the sky text, and each of the rainy and snowy suffixes adds its 8 characters exactly when rain > 2 or snow > 1 |
| `Weather.ParseWeather` | backend/data/weather.py:182-198 | a parsed description renders back to the same text |
| `Weather.ClassifyIsRender` | backend/data/weather.py:191-196 | the description is the sky text, then " & Rainy", then " & Snowy", in that order |
| `Weather.ParseRender` | backend/data/weather.py:184-196 | parsing a rendered description gives back its sky, rain and snow verdicts |
| `Weather.ParseClassifyRoundTrip` | backend/data/weather.py:182-198 | parsing `classify_weather`'s output recovers the three verdicts |
| `Weather.SameDescriptionIff` | backend/data/weather.py:182-198 | two measurements get the same description exactly when they agree on sky, rain and snow |
| `WeatherCard.WeatherIcon` | frontend/src/components/card/WeatherCard.js:12-27 | each of the four non-sunny labels gets its own icon exactly; everything else, numbers and `undefined` included, gets the sun |
| `WeatherCard.IconsDistinct` | frontend/src/components/card/WeatherCard.js:13-23 | the five labels map to five different icons |
| `WeatherCard.ClassifiedWeatherShowsSun` | frontend/src/components/card/WeatherCard.js:24-25 | no description the climate script produces is one of the five labels, so each is drawn with the sun |
| `WeatherCard.Card` | frontend/src/components/card/WeatherCard.js:41-124 | the card shows only the prompt exactly when nothing is selected, and fails exactly when the selected trip has no `destination_info`; otherwise it shows "city, country", the weather icon, the weather text or "Unknown", the duration or "N/A" with " days", and the price or "N/A" |
| `WeatherCard.JsxScalar` | frontend/src/components/card/WeatherCard.js:70 | an undefined temperature renders as nothing before "°C" |
| `WeatherCard.WeatherTextNonEmpty` | frontend/src/components/card/WeatherCard.js:73 | on a rendered card the weather text is never empty, and reads "Unknown" exactly when the weather is falsy or is itself "Unknown" |
| `FlightController.GetFlightsByOrigin` | backend/app/flight_controller.py:8-21 | a missing or empty list gives 404 "No flight data found"; otherwise the result is an order-preserving subsequence holding exactly the flights that match each truthy filter, each as often as in the data, and is everything when there are no filters |
| `FlightController.FiltersCommute` | backend/app/flight_controller.py:16-19 | filtering by origin and then by destination is filtering by both, in either order |
| `FlightController.GetAdvisory` | backend/app/flight_controller.py:24-36 | missing or empty data gives 404 "Advisory data not found"; otherwise the truthy entry under the lower-cased code is returned, or 404 naming the code as given |
| `FlightController.GetVisaRequirements` | backend/app/flight_controller.py:39-51 | the same with the upper-cased key and the visa messages |
| `FlightController.AdvisoryIgnoresCase` | backend/app/flight_controller.py:32 | codes that differ only in case find the same advisory |
| `FlightController.AdvisoryKeysAreLowerCase` | backend/app/flight_controller.py:32-36 | only lower-case keys of the advisory file are ever served |
| `FlightController.VisaIgnoresCase` | backend/app/flight_controller.py:47 | codes that differ only in case find the same requirements |
| `FlightController.VisaKeysAreUpperCase` | backend/app/flight_controller.py:47-51 | only upper-case keys of the visa file are ever served |
| `FlightService.IataToLocationInfo` | backend/app/flight_service.py:41-58 | an empty code or unknown airport gives all None; otherwise the ISO code and city are the airport's, and the country is named exactly when the ISO code is truthy; an ISO code pycountry does not know raises |
| `FlightService.IataToIso` | backend/app/flight_service.py:105-107 | `None` raises; an unknown airport gives None; a known one gives its country, raising when it has none |
| `FlightService.LookupIgnoresCase` | backend/app/flight_service.py:48 | both lookups ignore the case of the code |
| `FlightService.IsoAgrees` | backend/app/flight_service.py:105-107 | for a non-empty code the two functions agree on the ISO code whenever both succeed, and both report nothing for an unknown code |
| `FlightService.CountryNameIffIso` | backend/app/flight_service.py:49-57 | a successful lookup names the country exactly when it has a truthy ISO code |
| `Passport.CountryOptions` | frontend/src/components/user_input/Passport.js:19-27 | there is one option per feature, with its name, lower-cased id and calling code (or ""); there are none when some feature has no id, because the error is caught and only logged |
| `Passport.OptionLabel` | frontend/src/components/user_input/Passport.js:44 | the option's label, or "" when it is missing or empty |
| `Passport.OptionsFromFeatures` | frontend/src/components/user_input/Passport.js:19-44 | when every feature has an id, each option's flag code is lower-case and its label is its feature's name, or "" when that is missing |
| `Passport.RenderTags` | frontend/src/components/user_input/Passport.js:70-77 | no chip for an empty selection; otherwise one chip for the first value, with the first label alone or followed by " +" and the number of others |
| `Passport.ChipTextGivesCount` | frontend/src/components/user_input/Passport.js:73-77 | with the same first country, two selections give the same chip exactly when they have the same size |
| `GlobeColorSelector.Step` | frontend/src/components/globe/GlobeColorSelector.js:10-17 | a null change keeps the selection and calls nothing; a value becomes the selection and is passed to `onChange` exactly when there is one |
| `GlobeColorSelector.Chosen` | frontend/src/components/globe/GlobeColorSelector.js:11 | the non-null change values are exactly the values among the events |
| `GlobeColorSelector.ChosenSnoc` | frontend/src/components/globe/GlobeColorSelector.js:11 | no events give no values, and each further event appends its value exactly when it is not null; so the values keep the events' order |
| `GlobeColorSelector.Run` | frontend/src/components/globe/GlobeColorSelector.js:8-17 | starting from "advisory", the selection is the last non-null value, and `onChange` receives exactly the non-null values in order |
| `GlobeColorSelector.SelectionStaysOffered` | frontend/src/components/globe/GlobeColorSelector.js:49-50 | when the group only reports its buttons' values, the selection and every callback value are "advisory" or "visa" |
| `GlobeColorSelector.NullEventIgnored` | frontend/src/components/globe/GlobeColorSelector.js:11 | clicking the selected button again changes nothing |
| `GlobeColorSelector.CallbackTracksSelection` | frontend/src/components/globe/GlobeColorSelector.js:12-15 | the last value passed to `onChange` is the current selection |

## Left out

- All network and file I/O is left out:
  - the fetch helpers;
  - `useFetchVisa.js`;
  - the world.json requests;
  - the Open-Meteo request and the pandas aggregation in weather.py;
  - the `load_*` functions;
  - `get_airport_coords`, which reads a remote CSV.

  Their outcomes are parameters, as described above.
- React state, effects and re-render timing are left out. So is the
  `countries.length === 0` early return of GlobeGL, which only delays
  drawing.
- Rendering is left out:
  - d3 and globe.gl drawing;
  - projection geometry and drag rotation;
  - tooltip pixel positions;
  - hover altitude;
  - the d3 scales' pixel ranges;
  - the parallel-coordinates line paths and colours.
- The whitespace, inline styles and wrapper elements of the tooltip HTML
  are left out. The model keeps the text and the `<strong>`/`<br>` tags
  that structure it.
- Dates (`toLocaleDateString`) in the tooltips and the weather card are
  left out: their text depends on the locale library.
- The km/h to m/s factor 0.27778 and the monthly means of weather.py are
  left out. Speeds and measurements enter the classifiers as given, and
  `NaN` is not modelled.
- GlobeGL's `passportCountries` and `mapCountryCodesToNames` are left out.
  The country-name map is a parameter. GlobeGL never assigns `visaData`,
  so its visa fold and visa hover lines are modelled for whatever tables
  they are given.
- The ordering JavaScript gives integer-like object keys is left out. The
  passports of `visaData` are taken in the order given.
- Case mapping is ASCII only. JavaScript's `toLowerCase` and Python's
  `upper` also map non-ASCII letters.
- The airport table's entries are taken to be truthy. An airport entry that
  is an empty dict is not modelled.
- FastAPI routing, CORS and `main.py` are left out.
- JavaScript numbers that are shown as text are integers (`Scalar.Num`).
  The model cannot express a fractional value such as a `pcp.temp` of
  12.5, which renders as "12.5". Nor can it express `NaN`, which is falsy.
- `null` and `undefined` are one value: `None`, or `Scalar.Undefined`.
  JavaScript's `===` and `Set.has` tell them apart, so a record whose
  `country_name` is `null` does not match a feature without a name. The
  model lets it match. `${null}` renders "null", where the model renders
  "undefined".
- Pcp.AxisLabel: says nothing about keys that `customLabels` inherits
  from `Object.prototype`, such as "constructor". For those,
  `customLabels[d]` is an inherited function, not the key. The
  dimensions are always A to F, so no such key reaches the chart.
- The layout components are left out: About, the Card files, CardGrid,
  Dashboard, Header, App, SearchCard, Location, Passenger, Date,
  ResultsCard, PcpCard and GlobeCard. GlobeCard's only logic is the same
  zoom clamp.
- The zoom clamp is modelled once. GlobeAdvisory, GlobeResults,
  GlobeResultsCard and GlobeVisa each repeat the same expression.

=== FILE: advisory.dfy ===
/** Travel advisories: the four advice strings, the two colour tables
    (frontend/src/components/globe/GlobeGL.js for in-scope countries and
    frontend/src/components/globe/GlobeAdvisory.js), the split of fetch
    results into `advisoryMap` and `missing`, and the advisory tooltip. */
module Advisory {
  import opened Js
  import opened Records

  /** An advisory as the endpoint returns it; only `advice` is read. */
  datatype Advisory = Advisory(advice: string)

  datatype AdviceLevel = NoAdvisory | CertainAreas | NonEssential | AllTravel

  function AdviceText(l: AdviceLevel): string {
    match l
    case NoAdvisory => "No advisory"
    case CertainAreas => "Advisory against travel to certain areas"
    case NonEssential => "Advisory against non-essential travel"
    case AllTravel => "Advisory against all travel"
  }

  /** Which of the four known advice strings an advisory carries, if any. */
  function LevelOf(advice: string): (l: Option<AdviceLevel>)
    ensures l.Some? ==> AdviceText(l.value) == advice
    ensures l.None? ==> forall x: AdviceLevel :: AdviceText(x) != advice
  {
    if advice == "No advisory" then Some(NoAdvisory)
    else if advice == "Advisory against travel to certain areas" then Some(CertainAreas)
    else if advice == "Advisory against non-essential travel" then Some(NonEssential)
    else if advice == "Advisory against all travel" then Some(AllTravel)
    else None
  }

  // ---------------------------------------------------------------------
  // Colour tables

  /** GlobeGL's `polygonCapColor` for a country that is in scope. */
  function ScopeAdvisoryColour(a: Option<Advisory>): (colour: string)
    ensures a.None? ==> colour == "#9E9E9E"
    ensures a.Some? && LevelOf(a.value.advice).None? ==> colour == "#9E9E9E"
    ensures a.Some? && a.value.advice == "No advisory" ==> colour == "#4CAF50"
    ensures a.Some? && a.value.advice == "Advisory against travel to certain areas" ==> colour == "#674f82"
    ensures a.Some? && a.value.advice == "Advisory against non-essential travel" ==> colour == "#c07182"
    ensures a.Some? && a.value.advice == "Advisory against all travel" ==> colour == "#e69c67"
  {
    match a
    case None => "#9E9E9E"
    case Some(adv) =>
      match LevelOf(adv.advice)
      case None => "#9E9E9E"
      case Some(NoAdvisory) => "#4CAF50"
      case Some(CertainAreas) => "#674f82"
      case Some(NonEssential) => "#c07182"
      case Some(AllTravel) => "#e69c67"
  }

  /** GlobeAdvisory's fill. */
  function AdvisoryFill(a: Option<Advisory>): (colour: string)
    ensures a.None? ==> colour == "#e8e8e8"
    ensures a.Some? && LevelOf(a.value.advice).None? ==> colour == "#e8e8e8"
    ensures a.Some? && a.value.advice == "No advisory" ==> colour == "#4d4c60"
    ensures a.Some? && a.value.advice == "Advisory against travel to certain areas" ==> colour == "#674f82"
    ensures a.Some? && a.value.advice == "Advisory against non-essential travel" ==> colour == "#c07182"
    ensures a.Some? && a.value.advice == "Advisory against all travel" ==> colour == "#e69c67"
  {
    match a
    case None => "#e8e8e8"
    case Some(adv) =>
      match LevelOf(adv.advice)
      case None => "#e8e8e8"
      case Some(NoAdvisory) => "#4d4c60"
      case Some(CertainAreas) => "#674f82"
      case Some(NonEssential) => "#c07182"
      case Some(AllTravel) => "#e69c67"
  }

  /** The two tables agree on the three warning levels and differ exactly
      on "No advisory" and on the fallback. */
  lemma ColourTablesAgreeOnWarnings(a: Option<Advisory>)
    ensures ScopeAdvisoryColour(a) == AdvisoryFill(a) <==>
            a.Some? && LevelOf(a.value.advice).Some? && LevelOf(a.value.advice) != Some(NoAdvisory)
  {
  }

  /** Each table tells the four known levels apart, and tells them from the
      fallback. */
  lemma ColourTablesSeparateLevels(a: Option<Advisory>, b: Option<Advisory>)
    requires a.Some? && LevelOf(a.value.advice).Some?
    ensures AdvisoryFill(a) == AdvisoryFill(b) ==> b.Some? && LevelOf(b.value.advice) == LevelOf(a.value.advice)
    ensures ScopeAdvisoryColour(a) == ScopeAdvisoryColour(b) ==> b.Some? && LevelOf(b.value.advice) == LevelOf(a.value.advice)
  {
  }

  // ---------------------------------------------------------------------
  // Splitting the fetch results

  /** Among the results, the last one for `code` that returned data gave `a`. */
  ghost predicate LastAdvisoryFor(results: seq<(string, Option<Advisory>)>, code: string, a: Advisory) {
    exists i :: 0 <= i < |results| && results[i] == (code, Some(a)) &&
      forall i' :: i < i' < |results| && results[i'].0 == code ==> results[i'].1.None?
  }

  function Codes(results: seq<(string, Option<Advisory>)>): (codes: seq<string>)
    ensures |codes| == |results|
    ensures forall i :: 0 <= i < |results| ==> codes[i] == results[i].0
  {
    seq(|results|, i requires 0 <= i < |results| => results[i].0)
  }

  /** `advisoryMap` after the `forEach` of `fetchAllAdvisories`: a result with
      data sets its code, so a later result for the same code wins. */
  function AdvisoryMap(results: seq<(string, Option<Advisory>)>): (m: map<string, Advisory>)
    ensures forall code :: code in m <==> exists i :: 0 <= i < |results| && results[i].0 == code && results[i].1.Some?
    ensures forall code :: code in m ==> LastAdvisoryFor(results, code, m[code])
    decreases |results|
  {
    if |results| == 0 then map[]
    else
      var rest := AdvisoryMap(results[1..]);
      var first := results[0];
      var m := if first.1.Some? && first.0 !in rest then rest[first.0 := first.1.value] else rest;
      forall code | code in m ensures LastAdvisoryFor(results, code, m[code]) {
        if code in rest {
          assert LastAdvisoryFor(results[1..], code, rest[code]);
          var i :| 0 <= i < |results[1..]| && results[1..][i] == (code, Some(rest[code])) &&
            forall i' :: i < i' < |results[1..]| && results[1..][i'].0 == code ==> results[1..][i'].1.None?;
          assert results[i + 1] == (code, Some(m[code]));
        } else {
          assert forall i' :: 0 < i' < |results| && results[i'].0 == code ==> results[i'].1.None? by {
            forall i' | 0 < i' < |results| && results[i'].0 == code ensures results[i'].1.None? {
              assert results[1..][i' - 1] == results[i'];
            }
          }
          assert results[0] == (code, Some(m[code]));
        }
      }
      m
  }

  /** `missing` after the same loop: the codes whose request returned
      nothing, in input order. */
  function MissingCodes(results: seq<(string, Option<Advisory>)>): (missing: seq<string>)
    ensures forall code :: code in missing <==> exists i :: 0 <= i < |results| && results[i].0 == code && results[i].1.None?
    ensures IsSubsequence(missing, Codes(results))
    decreases |results|
  {
    if |results| == 0 then []
    else
      var rest := MissingCodes(results[1..]);
      assert Codes(results)[1..] == Codes(results[1..]);
      if results[0].1.None? then
        assert ([results[0].0] + rest)[1..] == rest;
        [results[0].0] + rest
      else rest
  }

  /** A code is listed in `missing` once for every empty result it has. */
  lemma {:induction false} MissingCodesCounts(results: seq<(string, Option<Advisory>)>)
    ensures forall code :: multiset(MissingCodes(results))[code] == multiset(results)[(code, None)]
    decreases |results|
  {
    if |results| > 0 {
      assert results == [results[0]] + results[1..];
      MissingCodesCounts(results[1..]);
    }
  }

  /** With distinct codes, every code ends up in exactly one of the map and
      the missing list. */
  lemma ExactlyOnePlace(results: seq<(string, Option<Advisory>)>, code: string)
    requires forall i, j :: 0 <= i < j < |results| ==> results[i].0 != results[j].0
    requires exists i :: 0 <= i < |results| && results[i].0 == code
    ensures (code in AdvisoryMap(results)) != (code in MissingCodes(results))
  {
  }

  // ---------------------------------------------------------------------
  // GlobeAdvisory's view

  /** The warning chip: shown when there is an advisory whose advice is not
      "No advisory". */
  predicate ShowsWarningChip(a: Option<Advisory>): (shown: bool)
    ensures shown <==> a.Some? && LevelOf(a.value.advice) != Some(NoAdvisory)
  {
    a.Some? && a.value.advice != "No advisory"
  }

  /** "No advisory data available": shown when there is no advisory. */
  predicate ShowsNoDataText(a: Option<Advisory>): (shown: bool)
    ensures shown <==> a.None?
    ensures shown ==> !ShowsWarningChip(a)
  {
    a.None?
  }

  /** The tooltip heading: `properties.name || 'Unknown Country'`. */
  function TooltipTitle(f: Feature): (title: string)
    ensures Present(f.name) ==> title == f.name.value
    ensures !Present(f.name) ==> title == "Unknown Country"
  {
    OrElse(f.name, "Unknown Country")
  }

  /** The tooltip shows at most one of the two, and the greyed-out fill
      goes with the "no data" text unless the advice string is unknown. */
  lemma TooltipMatchesFill(a: Option<Advisory>)
    ensures !(ShowsWarningChip(a) && ShowsNoDataText(a))
    ensures ShowsNoDataText(a) ==> AdvisoryFill(a) == "#e8e8e8"
    ensures AdvisoryFill(a) == "#e8e8e8" ==> ShowsNoDataText(a) || ShowsWarningChip(a)
    ensures !ShowsWarningChip(a) && !ShowsNoDataText(a) <==> AdvisoryFill(a) == "#4d4c60"
  {
  }

  /** The fill of every world feature, or nothing while `safetyData` is
      empty (the drawing effect returns early). */
  function AdvisoryGlobeFills(safetyData: map<string, Advisory>, features: seq<Feature>): (fills: Option<seq<string>>)
    ensures fills.None? <==> |safetyData| == 0
    ensures fills.Some? ==> |fills.value| == |features|
    ensures fills.Some? ==> forall i :: 0 <= i < |features| ==>
      fills.value[i] == AdvisoryFill(Get(safetyData, IdKey(features[i])))
  {
    if |safetyData| == 0 then None
    else Some(seq(|features|, i requires 0 <= i < |features| => AdvisoryFill(Get(safetyData, IdKey(features[i])))))
  }

  /** Per feature of the globe: the grey fill marks exactly the countries
      without an advisory or with an advice string outside the four, and
      the dark fill exactly those with "No advisory". */
  lemma FeatureFillShowsAdvice(safetyData: map<string, Advisory>, features: seq<Feature>, i: nat)
    requires |safetyData| > 0 && i < |features|
    ensures var fills := AdvisoryGlobeFills(safetyData, features);
            var a := Get(safetyData, IdKey(features[i]));
            fills.Some? &&
            (fills.value[i] == "#e8e8e8" <==> a.None? || LevelOf(a.value.advice).None?) &&
            (fills.value[i] == "#4d4c60" <==> a.Some? && a.value.advice == "No advisory")
  {
  }
}

=== FILE: color_selector.dfy ===
/** The colour-scheme toggle of the globe
    (frontend/src/components/globe/GlobeColorSelector.js): an exclusive
    toggle between "advisory" and "visa" whose change handler ignores the
    `null` the group reports when the selected button is clicked again. */
module GlobeColorSelector {
  import opened Js

  /** The values of the two toggle buttons. */
  const Offered: seq<string> := ["advisory", "visa"]

  /** The selection the component starts with. */
  const Initial: string := "advisory"

  /** One `handleChange`: the new selection, and the value passed to the
      `onChange` callback, if any. */
  function Step(alignment: string, newAlignment: Option<string>, hasOnChange: bool)
    : (r: (string, Option<string>))
    ensures newAlignment.None? ==> r == (alignment, None)
    ensures newAlignment.Some? ==> r.0 == newAlignment.value
    ensures r.1.Some? <==> newAlignment.Some? && hasOnChange
    ensures r.1.Some? ==> r.1.value == r.0
  {
    match newAlignment
    case None => (alignment, None)
    case Some(v) => (v, if hasOnChange then Some(v) else None)
  }

  /** The non-null values of a sequence of change events, in order. */
  function Chosen(events: seq<Option<string>>): (chosen: seq<string>)
    ensures |chosen| <= |events|
    ensures forall v :: v in chosen <==> Some(v) in events
  {
    if |events| == 0 then []
    else
      var init := Chosen(events[..|events| - 1]);
      assert events == events[..|events| - 1] + [events[|events| - 1]];
      match events[|events| - 1]
      case None => init
      case Some(v) => init + [v]
  }

  /** `Chosen` keeps the non-null values in event order: no events give
      none, and a further event appends its value exactly when it is not
      `null`. */
  lemma ChosenSnoc(events: seq<Option<string>>, e: Option<string>)
    ensures Chosen([]) == []
    ensures Chosen(events + [e]) == Chosen(events) + (if e.Some? then [e.value] else [])
  {
    assert (events + [e])[..|events|] == events;
  }

  /** The selection and the callback values after a sequence of change
      events, starting from the initial selection. */
  function Run(events: seq<Option<string>>, hasOnChange: bool)
    : (r: (string, seq<string>))
    ensures r.1 == (if hasOnChange then Chosen(events) else [])
    ensures r.0 == (if Chosen(events) == [] then Initial else Chosen(events)[|Chosen(events)| - 1])
  {
    if |events| == 0 then (Initial, [])
    else
      var before := Run(events[..|events| - 1], hasOnChange);
      var step := Step(before.0, events[|events| - 1], hasOnChange);
      (step.0, before.1 + (if step.1.Some? then [step.1.value] else []))
  }

  /** When every reported value is one of the buttons' values, the selection
      is always one of them. */
  lemma SelectionStaysOffered(events: seq<Option<string>>, hasOnChange: bool)
    requires forall i :: 0 <= i < |events| && events[i].Some? ==> events[i].value in Offered
    ensures Run(events, hasOnChange).0 in Offered
    ensures forall v :: v in Run(events, hasOnChange).1 ==> v in Offered
  {
    var chosen := Chosen(events);
    if chosen != [] {
      assert chosen[|chosen| - 1] in chosen;
    }
  }

  /** Clicking the selected button again (a `null` change) changes nothing
      and calls nothing. */
  lemma NullEventIgnored(events: seq<Option<string>>, hasOnChange: bool)
    ensures Run(events + [None], hasOnChange) == Run(events, hasOnChange)
  {
    assert (events + [None])[..|events|] == events;
  }

  /** The callback sees exactly the selections, so a parent that stores each
      value it is given holds the toggle's current selection. */
  lemma CallbackTracksSelection(events: seq<Option<string>>)
    requires Chosen(events) != []
    ensures var r := Run(events, true); r.1[|r.1| - 1] == r.0
  {
  }
}

=== FILE: flight_controller.dfy ===
/** The three FastAPI handlers of backend/app/flight_controller.py, as pure
    functions of the loaded data. A loader's result is an `Option` (`None`
    when the file is missing or unreadable); an `HTTPException` is an `Err`.
    Python truthiness: `None`, "" and empty collections are falsy. */
module FlightController {
  import opened Js

  datatype HttpError = HttpError(status: nat, detail: string)

  /** A flight offer; only `origin` and `destination` are read, the rest is
      passed through. */
  datatype Flight = Flight(origin: string, destination: string, fields: map<string, Scalar>)

  /** A JSON object as stored per country code. */
  type Record = map<string, Scalar>

  /** A loaded advisory or visa file: country code to entry (`None` for a
      JSON `null`). */
  type Table = map<string, Option<Record>>

  predicate Matches(f: Flight, origin: Option<string>, destination: Option<string>) {
    (Present(origin) ==> f.origin == origin.value) &&
    (Present(destination) ==> f.destination == destination.value)
  }

  function ByOrigin(flights: seq<Flight>, origin: string): seq<Flight> {
    Filter((f: Flight) => f.origin == origin, flights)
  }

  function ByDestination(flights: seq<Flight>, destination: string): seq<Flight> {
    Filter((f: Flight) => f.destination == destination, flights)
  }

  /** The two optional filters of `get_flights_by_origin`, in order. */
  function Narrowed(flights: seq<Flight>, origin: Option<string>, destination: Option<string>): seq<Flight> {
    var flights' := if Present(origin) then ByOrigin(flights, origin.value) else flights;
    if Present(destination) then ByDestination(flights', destination.value) else flights'
  }

  /** One filter step keeps a flight's copies exactly when it passes. */
  lemma ByOriginKeeps(flights: seq<Flight>, origin: string)
    ensures var r := ByOrigin(flights, origin);
            IsSubsequence(r, flights) &&
            (forall f :: f in r <==> f in flights && f.origin == origin) &&
            (forall f :: multiset(r)[f] == if f.origin == origin then multiset(flights)[f] else 0)
  {
    FilterCounts((f: Flight) => f.origin == origin, flights);
  }

  lemma ByDestinationKeeps(flights: seq<Flight>, destination: string)
    ensures var r := ByDestination(flights, destination);
            IsSubsequence(r, flights) &&
            (forall f :: f in r <==> f in flights && f.destination == destination) &&
            (forall f :: multiset(r)[f] == if f.destination == destination then multiset(flights)[f] else 0)
  {
    FilterCounts((f: Flight) => f.destination == destination, flights);
  }

  lemma NarrowedKeepsMatches(flights: seq<Flight>, origin: Option<string>, destination: Option<string>)
    ensures var r := Narrowed(flights, origin, destination);
            IsSubsequence(r, flights) &&
            (forall f :: f in r <==> f in flights && Matches(f, origin, destination)) &&
            (forall f :: multiset(r)[f] == if Matches(f, origin, destination) then multiset(flights)[f] else 0)
  {
    SubsequenceRefl(flights);
    if Present(origin) && Present(destination) {
      var a := ByOrigin(flights, origin.value);
      var r := ByDestination(a, destination.value);
      ByOriginKeeps(flights, origin.value);
      ByDestinationKeeps(a, destination.value);
      SubsequenceTrans(r, a, flights);
      forall f ensures multiset(r)[f] == if Matches(f, origin, destination) then multiset(flights)[f] else 0 {
        assert multiset(r)[f] == if f.destination == destination.value then multiset(a)[f] else 0;
        assert multiset(a)[f] == if f.origin == origin.value then multiset(flights)[f] else 0;
      }
    } else if Present(origin) {
      ByOriginKeeps(flights, origin.value);
    } else if Present(destination) {
      ByDestinationKeeps(flights, destination.value);
    }
  }

  /** `get_flights_by_origin`. */
  function GetFlightsByOrigin(loaded: Option<seq<Flight>>, origin: Option<string>, destination: Option<string>)
    : (r: Result<seq<Flight>, HttpError>)
    ensures r.Err? <==> loaded.None? || |loaded.value| == 0
    ensures r.Err? ==> r.error == HttpError(404, "No flight data found")
    ensures r.Ok? ==> IsSubsequence(r.value, loaded.value)
    ensures r.Ok? ==> forall f :: f in r.value <==> f in loaded.value && Matches(f, origin, destination)
    ensures r.Ok? ==> forall f :: multiset(r.value)[f] == if Matches(f, origin, destination) then multiset(loaded.value)[f] else 0
    ensures r.Ok? && !Present(origin) && !Present(destination) ==> r.value == loaded.value
  {
    if loaded.None? || |loaded.value| == 0 then Err(HttpError(404, "No flight data found"))
    else
      NarrowedKeepsMatches(loaded.value, origin, destination);
      Ok(Narrowed(loaded.value, origin, destination))
  }

  /** Filtering by origin and then by destination is filtering by both, and
      the two filters commute. */
  lemma FiltersCommute(flights: seq<Flight>, origin: string, destination: string)
    ensures ByDestination(ByOrigin(flights, origin), destination) ==
            Filter((f: Flight) => f.origin == origin && f.destination == destination, flights)
    ensures ByDestination(ByOrigin(flights, origin), destination) ==
            ByOrigin(ByDestination(flights, destination), origin)
  {
    var p := (f: Flight) => f.origin == origin;
    var q := (f: Flight) => f.destination == destination;
    var pq := (f: Flight) => f.origin == origin && f.destination == destination;
    var qp := (f: Flight) => f.destination == destination && f.origin == origin;
    FilterFilter(p, q, pq, flights);
    FilterFilter(q, p, qp, flights);
    FilterExt(pq, qp, flights);
  }

  /** Python's `if not x` for a loaded table entry. */
  predicate EntryTruthy(entry: Option<Record>) {
    entry.Some? && |entry.value| > 0
  }

  /** `dict.get(key)` followed by `if not entry`. */
  function Lookup(table: Table, key: string): Option<Record> {
    if key in table && EntryTruthy(table[key]) then table[key] else None
  }

  /** `get_advisory`: the entry under the lower-cased code. */
  function GetAdvisory(loaded: Option<Table>, countryCode: string): (r: Result<Record, HttpError>)
    ensures loaded.None? || |loaded.value| == 0 ==> r == Err(HttpError(404, "Advisory data not found"))
    ensures loaded.Some? && |loaded.value| > 0 ==>
      var key := Lower(countryCode);
      if key in loaded.value && EntryTruthy(loaded.value[key]) then r == Ok(loaded.value[key].value)
      else r == Err(HttpError(404, "No advisory found for country code " + countryCode))
  {
    if loaded.None? || |loaded.value| == 0 then Err(HttpError(404, "Advisory data not found"))
    else
      match Lookup(loaded.value, Lower(countryCode))
      case None => Err(HttpError(404, "No advisory found for country code " + countryCode))
      case Some(advisory) => Ok(advisory)
  }

  /** `get_visa_requirements`: the entry under the upper-cased code. */
  function GetVisaRequirements(loaded: Option<Table>, countryCode: string): (r: Result<Record, HttpError>)
    ensures loaded.None? || |loaded.value| == 0 ==> r == Err(HttpError(404, "Visa data not found"))
    ensures loaded.Some? && |loaded.value| > 0 ==>
      var key := Upper(countryCode);
      if key in loaded.value && EntryTruthy(loaded.value[key]) then r == Ok(loaded.value[key].value)
      else r == Err(HttpError(404, "No visa requirements found for country code " + countryCode))
  {
    if loaded.None? || |loaded.value| == 0 then Err(HttpError(404, "Visa data not found"))
    else
      match Lookup(loaded.value, Upper(countryCode))
      case None => Err(HttpError(404, "No visa requirements found for country code " + countryCode))
      case Some(requirements) => Ok(requirements)
  }

  /** Codes that differ only in case find the same advisory; the error
      detail echoes the code as given. */
  lemma AdvisoryIgnoresCase(loaded: Option<Table>, c1: string, c2: string)
    requires Lower(c1) == Lower(c2)
    ensures GetAdvisory(loaded, c1).Ok? == GetAdvisory(loaded, c2).Ok?
    ensures GetAdvisory(loaded, c1).Ok? ==> GetAdvisory(loaded, c1) == GetAdvisory(loaded, c2)
  {
  }

  /** Only lower-case keys of the advisory file are ever served. */
  lemma AdvisoryKeysAreLowerCase(loaded: Option<Table>, countryCode: string)
    requires GetAdvisory(loaded, countryCode).Ok?
    ensures exists key :: key in loaded.value && Lower(key) == key &&
                          loaded.value[key] == Some(GetAdvisory(loaded, countryCode).value)
  {
    var key := Lower(countryCode);
    LowerIdempotent(countryCode);
    assert key in loaded.value && Lower(key) == key;
  }

  /** Codes that differ only in case find the same visa requirements. */
  lemma VisaIgnoresCase(loaded: Option<Table>, c1: string, c2: string)
    requires Upper(c1) == Upper(c2)
    ensures GetVisaRequirements(loaded, c1).Ok? == GetVisaRequirements(loaded, c2).Ok?
    ensures GetVisaRequirements(loaded, c1).Ok? ==> GetVisaRequirements(loaded, c1) == GetVisaRequirements(loaded, c2)
  {
  }

  /** Only upper-case keys of the visa file are ever served. */
  lemma VisaKeysAreUpperCase(loaded: Option<Table>, countryCode: string)
    requires GetVisaRequirements(loaded, countryCode).Ok?
    ensures exists key :: key in loaded.value && Upper(key) == key &&
                          loaded.value[key] == Some(GetVisaRequirements(loaded, countryCode).value)
  {
    var key := Upper(countryCode);
    UpperIdempotent(countryCode);
    assert key in loaded.value && Upper(key) == key;
  }
}

=== FILE: flight_service.dfy ===
/** The IATA lookups of backend/app/flight_service.py over abstract tables:
    `airports` stands for the airportsdata table keyed by upper-case IATA
    code, `countries` for pycountry's alpha-2 to country-name lookup. */
module FlightService {
  import opened Js

  /** An airport entry: its `country` (ISO alpha-2) and `city`. */
  datatype Airport = Airport(country: Option<string>, city: Option<string>)

  datatype LocationInfo = LocationInfo(cityName: Option<string>, countryName: Option<string>, isoCode: Option<string>)

  /** The exceptions the lookups can raise. */
  datatype Raised =
    | AttributeError  // `.name` of the `None` pycountry returns for an unknown code, or `.upper()` of `None`
    | KeyError        // `airport['country']` on an entry without one

  const NoLocation: LocationInfo := LocationInfo(None, None, None)

  /** `iata_to_location_info`. */
  function IataToLocationInfo(code: Option<string>, airports: map<string, Airport>, countries: map<string, string>)
    : (r: Result<LocationInfo, Raised>)
    ensures !Present(code) ==> r == Ok(NoLocation)
    ensures Present(code) && Upper(code.value) !in airports ==> r == Ok(NoLocation)
    ensures Present(code) && Upper(code.value) in airports ==>
      var airport := airports[Upper(code.value)];
      (r.Err? <==> Present(airport.country) && airport.country.value !in countries) &&
      (r.Ok? ==> r.value.isoCode == airport.country && r.value.cityName == airport.city &&
                 (r.value.countryName.None? <==> !Present(airport.country)) &&
                 (r.value.countryName.Some? ==> r.value.countryName.value == countries[airport.country.value]))
  {
    if !Present(code) then Ok(NoLocation)
    else
      var key := Upper(code.value);
      if key in airports then
        var airport := airports[key];
        if Present(airport.country) then
          if airport.country.value in countries then
            Ok(LocationInfo(airport.city, Some(countries[airport.country.value]), airport.country))
          else Err(AttributeError)
        else Ok(LocationInfo(airport.city, None, airport.country))
      else Ok(NoLocation)
  }

  /** `iata_to_iso`: the airport's country, or `None` for an unknown code. */
  function IataToIso(code: Option<string>, airports: map<string, Airport>): (r: Result<Option<string>, Raised>)
    ensures code.None? ==> r == Err(AttributeError)
    ensures code.Some? && Upper(code.value) !in airports ==> r == Ok(None)
    ensures code.Some? && Upper(code.value) in airports ==>
      var airport := airports[Upper(code.value)];
      (r.Err? <==> airport.country.None?) && (r.Ok? ==> r.value == airport.country)
  {
    match code
    case None => Err(AttributeError)
    case Some(c) =>
      var key := Upper(c);
      if key !in airports then Ok(None)
      else match airports[key].country
        case None => Err(KeyError)
        case Some(iso) => Ok(Some(iso))
  }

  /** The lookups ignore the case of the code. */
  lemma LookupIgnoresCase(c1: string, c2: string, airports: map<string, Airport>, countries: map<string, string>)
    requires Upper(c1) == Upper(c2)
    ensures IataToLocationInfo(Some(c1), airports, countries) == IataToLocationInfo(Some(c2), airports, countries)
    ensures IataToIso(Some(c1), airports) == IataToIso(Some(c2), airports)
  {
  }

  /** For a non-empty code the two functions agree on the ISO code
      whenever both succeed, and for an unknown code both report nothing. */
  lemma IsoAgrees(code: string, airports: map<string, Airport>, countries: map<string, string>)
    requires code != ""
    ensures var info := IataToLocationInfo(Some(code), airports, countries);
            var iso := IataToIso(Some(code), airports);
            (info.Ok? && iso.Ok? ==> iso.value == info.value.isoCode) &&
            (Upper(code) !in airports ==> info == Ok(NoLocation) && iso == Ok(None))
  {
  }

  /** A successful lookup names the country exactly when it has a
      (non-empty) ISO code. */
  lemma CountryNameIffIso(code: Option<string>, airports: map<string, Airport>, countries: map<string, string>)
    requires IataToLocationInfo(code, airports, countries).Ok?
    ensures var info := IataToLocationInfo(code, airports, countries).value;
            info.countryName.Some? <==> Present(info.isoCode)
  {
  }
}

=== FILE: globe_gl.dfy ===
/** The globe.gl view (frontend/src/components/globe/GlobeGL.js): which
    countries are in scope for the current trip records, their cap colour,
    the trips listed on hover, the hover tooltip, and the removal of
    Antarctica. */
module GlobeGL {
  import opened Js
  import opened Records
  import Visa
  import Advisory

  /** The keys one trip record contributes to `filteredCountries`: its
      country name, the lower-cased name and, when present, its ISO code;
      a record without a country name contributes nothing. */
  function ScopeKeys(t: Trip): set<string> {
    if Present(CountryName(t)) then
      {CountryName(t).value, Lower(CountryName(t).value)} +
      (if Present(IsoCode(t)) then {IsoCode(t).value} else {})
    else {}
  }

  /** `filteredCountries`: one Set holding names, lower-cased names and ISO
      codes of all records together. */
  function FilteredCountries(data: seq<Trip>): (keys: set<string>)
    ensures forall x :: x in keys <==> exists i :: 0 <= i < |data| && x in ScopeKeys(data[i])
  {
    set i, x | 0 <= i < |data| && x in ScopeKeys(data[i]) :: x
  }

  /** The `isHighlighted` test of `polygonCapColor`, on `properties.name`
      and `id`. */
  predicate IsHighlighted(f: Feature, keys: set<string>) {
    (Present(f.name) && (f.name.value in keys || Lower(f.name.value) in keys)) ||
    (Present(f.id) && f.id.value in keys)
  }

  /** A record names the country, ignoring case. */
  predicate NameMatches(t: Trip, name: string) {
    Present(CountryName(t)) && SameIgnoringCase(CountryName(t).value, name)
  }

  /** A record with a country name carries the feature's id as ISO code. */
  predicate IdMatches(t: Trip, id: string) {
    Present(CountryName(t)) && Present(IsoCode(t)) && IsoCode(t).value == id
  }

  /** The matches the shared Set lets through besides the two above: the
      feature's name against a record's ISO code, or the feature's id
      against a record's (lower-cased) name. */
  predicate CrossKeyMatch(t: Trip, f: Feature) {
    Present(CountryName(t)) &&
    ((Present(f.name) && Present(IsoCode(t)) &&
      (f.name.value == IsoCode(t).value || Lower(f.name.value) == IsoCode(t).value)) ||
     (Present(f.id) && (f.id.value == CountryName(t).value || f.id.value == Lower(CountryName(t).value))))
  }

  predicate MatchesRecord(t: Trip, f: Feature) {
    (Present(f.name) && NameMatches(t, f.name.value)) ||
    (Present(f.id) && IdMatches(t, f.id.value))
  }

  /** A feature is in scope exactly when some record names it ignoring case,
      carries its id as ISO code, or collides with it across key kinds. */
  lemma {:induction false} InScopeIff(data: seq<Trip>, f: Feature)
    ensures IsHighlighted(f, FilteredCountries(data)) <==>
      exists i :: 0 <= i < |data| && (MatchesRecord(data[i], f) || CrossKeyMatch(data[i], f))
  {
    var keys := FilteredCountries(data);
    if IsHighlighted(f, keys) {
      if Present(f.name) && f.name.value in keys {
        var i :| 0 <= i < |data| && f.name.value in ScopeKeys(data[i]);
        LowerMatchImpliesSameIgnoringCase(f.name.value, CountryName(data[i]).value);
        assert MatchesRecord(data[i], f) || CrossKeyMatch(data[i], f);
      } else if Present(f.name) && Lower(f.name.value) in keys {
        var i :| 0 <= i < |data| && Lower(f.name.value) in ScopeKeys(data[i]);
        LowerMatchImpliesSameIgnoringCase(f.name.value, CountryName(data[i]).value);
        assert MatchesRecord(data[i], f) || CrossKeyMatch(data[i], f);
      } else {
        var i :| 0 <= i < |data| && f.id.value in ScopeKeys(data[i]);
        assert MatchesRecord(data[i], f) || CrossKeyMatch(data[i], f);
      }
    }
    if exists i :: 0 <= i < |data| && (MatchesRecord(data[i], f) || CrossKeyMatch(data[i], f)) {
      var i :| 0 <= i < |data| && (MatchesRecord(data[i], f) || CrossKeyMatch(data[i], f));
      if Present(f.name) && NameMatches(data[i], f.name.value) {
        assert Lower(f.name.value) in ScopeKeys(data[i]);
      } else if Present(f.id) && IdMatches(data[i], f.id.value) {
        assert f.id.value in ScopeKeys(data[i]);
      } else {
        assert CrossKeyMatch(data[i], f);
      }
    }
  }

  /** Without cross-key collisions the scope test is what it is meant to be:
      a case-insensitive name match, or the id equal to the ISO code of a
      record that has a country name. */
  lemma InScopeWithoutCollisions(data: seq<Trip>, f: Feature)
    requires forall i :: 0 <= i < |data| ==> !CrossKeyMatch(data[i], f)
    ensures IsHighlighted(f, FilteredCountries(data)) <==>
      exists i :: 0 <= i < |data| && MatchesRecord(data[i], f)
  {
    InScopeIff(data, f);
  }

  const MutedColour: string := "#4d4c60"

  /** `polygonCapColor`: muted out of scope, the advisory table in scope.
      The colour scheme is not an input. */
  function CapColour(f: Feature, keys: set<string>, advisoryData: map<string, Advisory.Advisory>): (colour: string)
    ensures colour == MutedColour <==> !IsHighlighted(f, keys)
    ensures IsHighlighted(f, keys) ==> colour == Advisory.ScopeAdvisoryColour(Get(advisoryData, IdKey(f)))
  {
    if !IsHighlighted(f, keys) then MutedColour
    else Advisory.ScopeAdvisoryColour(Get(advisoryData, IdKey(f)))
  }

  /** The filter of the hover handler: records whose country name equals
      the hovered `properties.NAME`, exactly or ignoring case. */
  function HoverTrips(data: seq<Trip>, hoverName: Option<string>): (trips: seq<Trip>)
    ensures forall t :: t in trips <==> t in data && Present(hoverName) && NameMatches(t, hoverName.value)
    ensures IsSubsequence(trips, data)
    ensures forall t :: multiset(trips)[t] == (if Present(hoverName) && NameMatches(t, hoverName.value) then multiset(data)[t] else 0)
  {
    FilterCounts((t: Trip) => Present(CountryName(t)) && Present(hoverName) &&
                              (CountryName(t).value == hoverName.value ||
                               Lower(CountryName(t).value) == Lower(hoverName.value)), data);
    Filter((t: Trip) => Present(CountryName(t)) && Present(hoverName) &&
                        (CountryName(t).value == hoverName.value ||
                         Lower(CountryName(t).value) == Lower(hoverName.value)), data)
  }

  /** `countries.filter(d => d.properties.ISO_A2 !== 'AQ')`. */
  function DropAntarctica(features: seq<Feature>): (kept: seq<Feature>)
    ensures forall f :: f in kept <==> f in features && f.isoA2 != Some("AQ")
    ensures IsSubsequence(kept, features)
    ensures forall f :: multiset(kept)[f] == if f.isoA2 != Some("AQ") then multiset(features)[f] else 0
    ensures (forall i :: 0 <= i < |features| ==> features[i].isoA2 != Some("AQ")) ==> kept == features
  {
    var p := (f: Feature) => f.isoA2 != Some("AQ");
    FilterCounts(p, features);
    if forall i :: 0 <= i < |features| ==> features[i].isoA2 != Some("AQ") then
      FilterAll(p, features);
      Filter(p, features)
    else
      Filter(p, features)
  }

  /** Dropping Antarctica twice is dropping it once. */
  lemma DropAntarcticaIdempotent(features: seq<Feature>)
    ensures DropAntarctica(DropAntarctica(features)) == DropAntarctica(features)
  {
    var kept := DropAntarctica(features);
    assert forall i :: 0 <= i < |kept| ==> kept[i] in kept;
  }

  // ---------------------------------------------------------------------
  // Hover tooltip

  datatype ColourScheme = AdvisoryScheme | VisaScheme

  /** The advisory badge: its background colour and its text. */
  datatype Badge = Badge(colour: string, text: string)

  /** What the hover tooltip shows: the hovered name, the advisory badge
      (advisory scheme), one visa line per passport with an entry (visa
      scheme), the trips listed and their rendered sections, or the "No
      trips available" text. */
  datatype HoverTooltip = HoverTooltip(
    title: string,
    badge: Option<Badge>,
    visaLines: seq<string>,
    trips: seq<Trip>,
    sections: seq<TripSection>,
    noTripsText: bool)

  /** A trip's block as the template literal renders it: a missing city
      prints "undefined", and the price line starts with the mis-encoded
      pound sign "Â£". */
  function Section(t: Trip): TripSection {
    TripSection(TextOf(CityName(t)) + " (" + t.destination + ")", "Â£" + ScalarOr(t.priceTotal, "N/A"))
  }

  /** The hover handler's own scope test: `properties.NAME` only, no id. */
  predicate HoverHighlighted(f: Feature, keys: set<string>): (highlighted: bool)
    ensures highlighted <==> IsHighlighted(f.(name := f.upperName, id := None), keys)
  {
    Present(f.upperName) && (f.upperName.value in keys || Lower(f.upperName.value) in keys)
  }

  /** The badge colour: green for "No advisory", amber for the
      certain-areas advice, red for anything else. */
  function BadgeColour(advice: string): (colour: string)
    ensures colour == "#4CAF50" <==> Advisory.LevelOf(advice) == Some(Advisory.NoAdvisory)
    ensures colour == "#FFC107" <==> Advisory.LevelOf(advice) == Some(Advisory.CertainAreas)
    ensures colour == "#F44336" <==> Advisory.LevelOf(advice) != Some(Advisory.NoAdvisory) &&
                                     Advisory.LevelOf(advice) != Some(Advisory.CertainAreas)
  {
    if advice == "No advisory" then "#4CAF50"
    else if advice == "Advisory against travel to certain areas" then "#FFC107"
    else "#F44336"
  }

  /** The badge and the cap share only the green of "No advisory"; every
      other advice gets a different colour on the badge than on the cap. */
  lemma BadgeMatchesCapOnlyWhenSafe(advice: string)
    ensures BadgeColour(advice) == Advisory.ScopeAdvisoryColour(Some(Advisory.Advisory(advice))) <==> advice == "No advisory"
  {
  }

  /** The hover's scope test is the cap's name test on `properties.NAME`:
      a record names the country ignoring case, or the name collides with
      a record's ISO code. The id plays no part. */
  lemma HoverScopeIff(data: seq<Trip>, f: Feature)
    ensures HoverHighlighted(f, FilteredCountries(data)) <==>
      Present(f.upperName) &&
      exists i :: 0 <= i < |data| &&
        (NameMatches(data[i], f.upperName.value) ||
         (Present(CountryName(data[i])) && Present(IsoCode(data[i])) &&
          (f.upperName.value == IsoCode(data[i]).value || Lower(f.upperName.value) == IsoCode(data[i]).value)))
  {
    var g := f.(name := f.upperName, id := None);
    InScopeIff(data, g);
  }

  /** One line per passport whose table has a truthy entry for the country,
      in key order. */
  function HoverVisaLines(visaData: Visa.VisaData, countryNames: map<string, Option<string>>, countryId: string): (lines: seq<string>)
    ensures |lines| <= |visaData|
    ensures lines == [] <==> forall i :: 0 <= i < |visaData| ==> !Visa.Entry(visaData[i].1, countryId).Truthy()
    ensures forall line :: line in lines ==>
      exists i :: 0 <= i < |visaData| && Visa.Entry(visaData[i].1, countryId).Truthy() &&
                  line == Visa.PassportLine(countryNames, visaData[i].0, visaData[i].1, countryId)
    decreases |visaData|
  {
    if |visaData| == 0 then []
    else
      var rest := HoverVisaLines(visaData[1..], countryNames, countryId);
      var req := Visa.Entry(visaData[0].1, countryId);
      if req.Truthy() then
        [Visa.PassportLine(countryNames, visaData[0].0, visaData[0].1, countryId)] + rest
      else rest
  }

  /** Adding a passport at the end appends its line when its table has a
      truthy entry for the country, and nothing otherwise; with the empty
      case this fixes the lines to one per such passport, in key order. */
  lemma {:induction false} HoverVisaLinesSnoc(visaData: Visa.VisaData, extra: (string, Option<Visa.RequirementTable>),
                                              countryNames: map<string, Option<string>>, countryId: string)
    ensures HoverVisaLines([], countryNames, countryId) == []
    ensures HoverVisaLines(visaData + [extra], countryNames, countryId) ==
      HoverVisaLines(visaData, countryNames, countryId) +
      (if Visa.Entry(extra.1, countryId).Truthy()
       then [Visa.PassportLine(countryNames, extra.0, extra.1, countryId)]
       else [])
    decreases |visaData|
  {
    if |visaData| > 0 {
      assert (visaData + [extra])[1..] == visaData[1..] + [extra];
      HoverVisaLinesSnoc(visaData[1..], extra, countryNames, countryId);
    }
  }

  /** Where every passport's entry is truthy, the hover has one line per
      passport, in key order. */
  lemma {:induction false} HoverLinesAllTruthy(visaData: Visa.VisaData, countryNames: map<string, Option<string>>, countryId: string)
    requires forall i :: 0 <= i < |visaData| ==> Visa.Entry(visaData[i].1, countryId).Truthy()
    ensures |HoverVisaLines(visaData, countryNames, countryId)| == |visaData|
    ensures forall i :: 0 <= i < |visaData| ==>
      HoverVisaLines(visaData, countryNames, countryId)[i] == Visa.PassportLine(countryNames, visaData[i].0, visaData[i].1, countryId)
    decreases |visaData|
  {
    if |visaData| > 0 {
      var tail := visaData[1..];
      assert forall i :: 0 <= i < |tail| ==> tail[i] == visaData[i + 1];
      HoverLinesAllTruthy(tail, countryNames, countryId);
      var lines := HoverVisaLines(visaData, countryNames, countryId);
      var rest := HoverVisaLines(tail, countryNames, countryId);
      assert lines == [Visa.PassportLine(countryNames, visaData[0].0, visaData[0].1, countryId)] + rest;
      forall i | 0 < i < |visaData|
        ensures lines[i] == Visa.PassportLine(countryNames, visaData[i].0, visaData[i].1, countryId)
      {
        assert lines[i] == rest[i - 1];
      }
    }
  }

  /** Where every passport has a table with a truthy entry, the hover lists
      the same lines as GlobeVisa's tooltip. */
  lemma HoverLinesMatchVisaTooltip(visaData: Visa.VisaData, countryNames: map<string, Option<string>>, countryId: string)
    requires forall i :: 0 <= i < |visaData| ==> visaData[i].1.Some? && Visa.Entry(visaData[i].1, countryId).Truthy()
    ensures Visa.VisaTooltipLines(visaData, countryNames, countryId) == Some(HoverVisaLines(visaData, countryNames, countryId))
  {
    HoverLinesAllTruthy(visaData, countryNames, countryId);
    var lines := Visa.VisaTooltipLines(visaData, countryNames, countryId);
    assert lines.Some?;
    assert lines.value == HoverVisaLines(visaData, countryNames, countryId);
  }

  function Tooltip(scheme: ColourScheme, f: Feature, keys: set<string>, data: seq<Trip>,
                   advisoryData: map<string, Advisory.Advisory>, visaData: Visa.VisaData,
                   countryNames: map<string, Option<string>>): (tip: HoverTooltip)
    ensures tip.title == TextOf(f.upperName)
    ensures tip.noTripsText <==> !HoverHighlighted(f, keys)
    ensures tip.badge.Some? <==> HoverHighlighted(f, keys) && scheme == AdvisoryScheme && Get(advisoryData, IdKey(f)).Some?
    ensures tip.badge.Some? ==> tip.badge.value.text == Get(advisoryData, IdKey(f)).value.advice &&
                                tip.badge.value.colour == BadgeColour(tip.badge.value.text)
    ensures tip.visaLines != [] ==> HoverHighlighted(f, keys) && scheme == VisaScheme
    ensures HoverHighlighted(f, keys) && scheme == VisaScheme ==> tip.visaLines == HoverVisaLines(visaData, countryNames, IdKey(f))
    ensures tip.trips == if HoverHighlighted(f, keys) then HoverTrips(data, f.upperName) else []
    ensures forall i :: 0 <= i < |tip.trips| ==> tip.trips[i].info.Some?
    ensures |tip.sections| == |tip.trips| &&
            forall i :: 0 <= i < |tip.trips| ==>
              tip.sections[i].heading == TextOf(CityName(tip.trips[i])) + " (" + tip.trips[i].destination + ")" &&
              tip.sections[i].price == "Â£" + ScalarOr(tip.trips[i].priceTotal, "N/A")
  {
    var highlighted := HoverHighlighted(f, keys);
    var advisory := Get(advisoryData, IdKey(f));
    var trips := if highlighted then HoverTrips(data, f.upperName) else [];
    HoverTooltip(
      TextOf(f.upperName),
      if highlighted && scheme == AdvisoryScheme && advisory.Some?
      then Some(Badge(BadgeColour(advisory.value.advice), advisory.value.advice)) else None,
      if highlighted && scheme == VisaScheme then HoverVisaLines(visaData, countryNames, IdKey(f)) else [],
      trips,
      seq(|trips|, i requires 0 <= i < |trips| => Section(trips[i])),
      !highlighted)
  }

  /** The colour scheme changes only the advisory badge and the visa lines;
      title, trips and the "no trips" text are the same under both, and
      each scheme shows only its own section. */
  lemma SchemeOnlyChangesTooltip(f: Feature, keys: set<string>, data: seq<Trip>,
                                 advisoryData: map<string, Advisory.Advisory>, visaData: Visa.VisaData,
                                 countryNames: map<string, Option<string>>)
    ensures var a := Tooltip(AdvisoryScheme, f, keys, data, advisoryData, visaData, countryNames);
            var v := Tooltip(VisaScheme, f, keys, data, advisoryData, visaData, countryNames);
            a.title == v.title && a.trips == v.trips && a.sections == v.sections && a.noTripsText == v.noTripsText &&
            a.visaLines == [] && v.badge.None?
  {
  }

  /** A hovered country that is out of scope shows no trips and no
      sections; one in scope lists exactly its case-insensitively matching
      records. */
  lemma TooltipTripsIff(scheme: ColourScheme, f: Feature, data: seq<Trip>,
                        advisoryData: map<string, Advisory.Advisory>, visaData: Visa.VisaData,
                        countryNames: map<string, Option<string>>, t: Trip)
    ensures var tip := Tooltip(scheme, f, FilteredCountries(data), data, advisoryData, visaData, countryNames);
            (tip.noTripsText ==> tip.trips == [] && tip.sections == [] && tip.badge.None? && tip.visaLines == []) &&
            (t in tip.trips <==> t in data && Present(f.upperName) && NameMatches(t, f.upperName.value))
  {
    var keys := FilteredCountries(data);
    if t in data && Present(f.upperName) && NameMatches(t, f.upperName.value) {
      var i :| 0 <= i < |data| && data[i] == t;
      assert Lower(f.upperName.value) in ScopeKeys(data[i]);
    }
  }
}

=== FILE: globe_results.dfy ===
/** The d3 results globe (frontend/src/components/globe/GlobeResults.js):
    countries named by some trip record are green, and hovering a country
    shows its advisory chip, its visa chips and one section per trip. The
    name match here is exact (`===` and `Set.has`), so an undefined name
    matches an undefined `country_name`. */
module GlobeResults {
  import opened Js
  import opened Records
  import GlobeGL

  const HighlightFill: string := "#4CAF50"
  const MutedFill: string := "#4d4c60"

  /** `new Set(data.map(d => d.destination_info.country_name))`, or `None`
      when some record has no `destination_info`: reading its
      `country_name` throws, and the globe is never drawn. */
  function ResultNames(data: seq<Trip>): (names: Option<set<Option<string>>>)
    ensures names.None? <==> exists i :: 0 <= i < |data| && data[i].info.None?
    ensures names.Some? ==> forall n :: n in names.value <==> exists i :: 0 <= i < |data| && CountryName(data[i]) == n
  {
    if AllCarryInfo(data) then Some(set i | 0 <= i < |data| :: CountryName(data[i])) else None
  }

  function ResultsFill(f: Feature, names: set<Option<string>>): (colour: string)
    ensures colour == HighlightFill <==> f.name in names
    ensures colour == HighlightFill || colour == MutedFill
  {
    if f.name in names then HighlightFill else MutedFill
  }

  /** The records whose country name is exactly the hovered name. The
      handler reads `destination_info.country_name` without `?.`; it exists
      only once `ResultNames` succeeded, so every record carries it. */
  function CountryTrips(data: seq<Trip>, name: Option<string>): (trips: seq<Trip>)
    ensures forall t :: t in trips <==> t in data && CountryName(t) == name
    ensures IsSubsequence(trips, data)
    ensures forall t :: multiset(trips)[t] == if CountryName(t) == name then multiset(data)[t] else 0
  {
    FilterCounts((t: Trip) => CountryName(t) == name, data);
    Filter((t: Trip) => CountryName(t) == name, data)
  }

  /** A country is highlighted exactly when it has trips. */
  lemma HighlightedIffTrips(data: seq<Trip>, f: Feature)
    ensures ResultNames(data).Some? ==> (f.name in ResultNames(data).value <==> |CountryTrips(data, f.name)| > 0)
  {
    var trips := CountryTrips(data, f.name);
    if ResultNames(data).Some? && f.name in ResultNames(data).value {
      var i :| 0 <= i < |data| && CountryName(data[i]) == f.name;
      assert data[i] in trips;
    }
    if |trips| > 0 {
      assert trips[0] in trips;
    }
  }

  // ---------------------------------------------------------------------
  // Hover tooltip

  /** One chip of the visa row: a flag chip per `visaDetails` entry whose text is
      the rendered value, or the single "Visa: N/A" chip carrying the
      lower-cased ISO code of its flag. */
  datatype VisaChip = FlagChip(passport: string, text: string) | NotAvailable(flagCode: string)

  /** A trip section: "city (IATA)" and the price line. Dates are not
      modelled. */
  datatype ResultsTooltip = ResultsTooltip(
    title: string,
    advisoryChip: Option<string>,
    visaChips: seq<VisaChip>,
    sections: seq<TripSection>,
    noTripsText: bool)

  /** The advisory chip of the first trip: shown when its `pcp.safety` is
      truthy and is neither "None" nor "No advisory". */
  function AdvisoryChip(trips: seq<Trip>): (chip: Option<string>)
    ensures chip.Some? <==>
      |trips| > 0 && trips[0].pcp.Some? && trips[0].pcp.value.safety.Truthy() &&
      trips[0].pcp.value.safety != Str("None") && trips[0].pcp.value.safety != Str("No advisory")
    ensures chip.Some? ==> chip.value == trips[0].pcp.value.safety.Render()
  {
    if |trips| > 0 && trips[0].pcp.Some? then
      var safety := trips[0].pcp.value.safety;
      if safety.Truthy() && safety != Str("None") && safety != Str("No advisory") then Some(safety.Render())
      else None
    else None
  }

  /** The visa row for a non-empty trip list. Building the "Visa: N/A"
      chip calls `iso_code.toLowerCase()`, which throws when the first trip
      has no ISO code: `None`. */
  function VisaChips(trips: seq<Trip>): (chips: Option<seq<VisaChip>>)
    requires |trips| > 0
    ensures var first := trips[0];
            chips.None? <==> (first.pcp.None? || first.pcp.value.visaDetails.None?) && IsoCode(first).None?
    ensures var first := trips[0];
            first.pcp.Some? && first.pcp.value.visaDetails.Some? ==>
              var details := first.pcp.value.visaDetails.value;
              chips.Some? && |chips.value| == |details| &&
              forall i :: 0 <= i < |details| ==> chips.value[i] == FlagChip(details[i].0, details[i].1.Render())
    ensures var first := trips[0];
            (first.pcp.None? || first.pcp.value.visaDetails.None?) && IsoCode(first).Some? ==>
              chips == Some([NotAvailable(Lower(IsoCode(first).value))])
  {
    var first := trips[0];
    if first.pcp.Some? && first.pcp.value.visaDetails.Some? then
      var details := first.pcp.value.visaDetails.value;
      Some(seq(|details|, i requires 0 <= i < |details| => FlagChip(details[i].0, details[i].1.Render())))
    else if IsoCode(first).Some? then
      Some([NotAvailable(Lower(IsoCode(first).value))])
    else
      None
  }

  /** A trip's block as JSX renders it: a missing city renders nothing. */
  function Section(t: Trip): TripSection {
    TripSection(JsxText(CityName(t)) + " (" + t.destination + ")", "£" + ScalarOr(t.priceTotal, "N/A"))
  }

  /** The two globes render the same trip differently: GlobeGL's template
      literal prints a missing city as "undefined" and its price carries a
      stray "Â" before the pound sign; with a city the headings agree. */
  lemma SectionVersusGlobeGL(t: Trip)
    ensures GlobeGL.Section(t).price == "Â" + Section(t).price
    ensures CityName(t).Some? ==> GlobeGL.Section(t).heading == Section(t).heading
    ensures CityName(t).None? ==> GlobeGL.Section(t).heading == "undefined" + Section(t).heading
  {
  }

  /** The `mouseenter` tooltip, or `None` when there is none: some record
      lacks `destination_info` (the globe is never drawn), or rendering the
      visa chip throws. */
  function Tooltip(f: Feature, data: seq<Trip>): (tip: Option<ResultsTooltip>)
    ensures var trips := CountryTrips(data, f.name);
            tip.None? <==> !AllCarryInfo(data) || (|trips| > 0 && VisaChips(trips).None?)
    ensures tip.Some? ==> tip.value.title == JsxText(f.name)
    ensures tip.Some? ==>
      var trips := CountryTrips(data, f.name);
      |tip.value.sections| == |trips| &&
      forall i :: 0 <= i < |trips| ==>
        tip.value.sections[i].heading == JsxText(CityName(trips[i])) + " (" + trips[i].destination + ")" &&
        tip.value.sections[i].price == "£" + ScalarOr(trips[i].priceTotal, "N/A")
    ensures tip.Some? ==> (tip.value.noTripsText <==> |CountryTrips(data, f.name)| == 0)
    ensures var trips := CountryTrips(data, f.name);
            tip.Some? && |trips| > 0 ==>
              tip.value.advisoryChip == AdvisoryChip(trips) && tip.value.visaChips == VisaChips(trips).value
  {
    var trips := CountryTrips(data, f.name);
    HighlightedIffTrips(data, f);
    var sections := seq(|trips|, i requires 0 <= i < |trips| => Section(trips[i]));
    if !AllCarryInfo(data) then None
    else if f.name in ResultNames(data).value then
      match VisaChips(trips)
      case None => None
      case Some(chips) => Some(ResultsTooltip(JsxText(f.name), AdvisoryChip(trips), chips, sections, false))
    else
      Some(ResultsTooltip(JsxText(f.name), None, [], sections, true))
  }

  /** The tooltip and the fill agree: "No trips available" with nothing
      else exactly on muted countries, and a visa row on green ones. */
  lemma TooltipAgreesWithFill(f: Feature, data: seq<Trip>)
    requires Tooltip(f, data).Some?
    ensures var tip := Tooltip(f, data).value;
            ResultNames(data).Some? && (tip.noTripsText <==> ResultsFill(f, ResultNames(data).value) == MutedFill)
    ensures var tip := Tooltip(f, data).value;
            tip.noTripsText ==> tip.advisoryChip.None? && tip.visaChips == [] && tip.sections == []
    ensures var tip := Tooltip(f, data).value;
            !tip.noTripsText ==> |tip.visaChips| > 0 || (CountryTrips(data, f.name)[0].pcp.Some? && CountryTrips(data, f.name)[0].pcp.value.visaDetails == Some([]))
  {
    HighlightedIffTrips(data, f);
  }
}

=== FILE: globe_results_card.dfy ===
/** The small results globe of the dashboard card
    (frontend/src/components/GlobeResultsCard.js). It builds the same name
    set and the same fill as the results globe; its tooltip is one line of
    HTML saying whether the country is selected. */
module GlobeResultsCard {
  import opened Js
  import opened Records
  import GlobeResults

  /** The fixed part of the tooltip before the status word. */
  function TitlePart(f: Feature): string {
    "<strong>" + TextOf(f.name) + "</strong><br>"
  }

  /** The `mouseenter` HTML. */
  function CardTooltip(f: Feature, names: set<Option<string>>): (html: string)
    ensures f.name in names ==> html == TitlePart(f) + "Selected"
    ensures f.name !in names ==> html == TitlePart(f) + "Not Selected"
  {
    TitlePart(f) + (if f.name in names then "Selected" else "Not Selected")
  }

  /** The tooltip says "Selected" exactly where the globe paints the
      country green, and "Not Selected" exactly where it is muted. */
  lemma TooltipAgreesWithFill(f: Feature, names: set<Option<string>>)
    ensures CardTooltip(f, names) == TitlePart(f) + "Selected" <==>
            GlobeResults.ResultsFill(f, names) == GlobeResults.HighlightFill
    ensures CardTooltip(f, names) == TitlePart(f) + "Not Selected" <==>
            GlobeResults.ResultsFill(f, names) == GlobeResults.MutedFill
  {
    if f.name !in names {
      var a := TitlePart(f) + "Selected";
      var b := TitlePart(f) + "Not Selected";
      assert a[|TitlePart(f)|] != b[|TitlePart(f)|];
    }
  }

  /** The card's globe is drawn only when every destination carries
      `destination_info`; then a country is selected exactly when some
      destination record carries its name, and the results globe lists it. */
  lemma SelectedIffDestination(f: Feature, destinations: seq<Trip>)
    ensures GlobeResults.ResultNames(destinations).None? <==> !AllCarryInfo(destinations)
    ensures var names := GlobeResults.ResultNames(destinations);
            names.Some? ==>
              (CardTooltip(f, names.value) == TitlePart(f) + "Selected" <==>
               |GlobeResults.CountryTrips(destinations, f.name)| > 0)
  {
    var names := GlobeResults.ResultNames(destinations);
    if names.Some? {
      TooltipAgreesWithFill(f, names.value);
    }
    GlobeResults.HighlightedIffTrips(destinations, f);
  }
}

=== FILE: js.dfy ===
/** Values and helpers shared by the JavaScript and Python code being modelled:
    optional values, error outcomes, loosely typed JSON scalars with their
    truthiness, ASCII case mapping, decimal rendering of integers, string
    joining and order-preserving filtering. */
module Js {

  datatype Option<+T> = None | Some(value: T)

  datatype Result<+T, +E> = Ok(value: T) | Err(error: E)

  /** A JSON scalar as the front end sees it: a string, a number or a
      missing value (`undefined` / `null`). */
  datatype Scalar = Str(text: string) | Num(number: int) | Undefined {

    /** JavaScript truthiness: "", 0 and undefined are falsy. */
    predicate Truthy() {
      match this
      case Str(s) => s != ""
      case Num(n) => n != 0
      case Undefined => false
    }

    /** What a template literal `${v}` produces for this value. */
    function Render(): string {
      match this
      case Str(s) => s
      case Num(n) => IntToString(n)
      case Undefined => "undefined"
    }
  }

  /** Truthiness of an optional string field (`undefined` or ""). */
  predicate Present(o: Option<string>) {
    o.Some? && o.value != ""
  }

  /** What a template literal produces for an optional string field. */
  function TextOf(o: Option<string>): string {
    match o
    case Some(s) => s
    case None => "undefined"
  }

  /** What JSX renders for an optional string child: `undefined` renders
      nothing. */
  function JsxText(o: Option<string>): (shown: string)
    ensures o.Some? ==> shown == o.value
    ensures o.None? ==> shown == ""
  {
    match o
    case Some(s) => s
    case None => ""
  }

  /** `v || fallback` rendered as text. */
  function ScalarOr(v: Scalar, fallback: string): (shown: string)
    ensures v.Truthy() ==> shown == v.Render()
    ensures !v.Truthy() ==> shown == fallback
  {
    if v.Truthy() then v.Render() else fallback
  }

  /** `a || b` on optional strings. */
  function OrElse(o: Option<string>, fallback: string): (r: string)
    ensures Present(o) ==> r == o.value
    ensures !Present(o) ==> r == fallback
  {
    if Present(o) then o.value else fallback
  }

  // ---------------------------------------------------------------------
  // ASCII case mapping

  function LowerChar(c: char): char {
    if 'A' <= c <= 'Z' then (c as int + 32) as char else c
  }

  function UpperChar(c: char): char {
    if 'a' <= c <= 'z' then (c as int - 32) as char else c
  }

  function Lower(s: string): (r: string)
    ensures |r| == |s|
  {
    seq(|s|, i requires 0 <= i < |s| => LowerChar(s[i]))
  }

  function Upper(s: string): (r: string)
    ensures |r| == |s|
  {
    seq(|s|, i requires 0 <= i < |s| => UpperChar(s[i]))
  }

  lemma LowerIdempotent(s: string)
    ensures Lower(Lower(s)) == Lower(s)
  {
  }

  lemma UpperIdempotent(s: string)
    ensures Upper(Upper(s)) == Upper(s)
  {
  }

  /** Two strings equal "ignoring case" in the sense the front end uses. */
  predicate SameIgnoringCase(a: string, b: string) {
    Lower(a) == Lower(b)
  }

  /** Lower-casing either side of an exact comparison still implies a
      case-insensitive match. */
  lemma LowerMatchImpliesSameIgnoringCase(a: string, b: string)
    ensures a == Lower(b) ==> SameIgnoringCase(a, b)
    ensures Lower(a) == b ==> SameIgnoringCase(a, b)
  {
    LowerIdempotent(a);
    LowerIdempotent(b);
  }

  // ---------------------------------------------------------------------
  // Decimal rendering of integers (what `${n}` and f-strings produce)

  predicate IsDigit(c: char) {
    '0' <= c <= '9'
  }

  predicate AllDigits(s: string) {
    forall i :: 0 <= i < |s| ==> IsDigit(s[i])
  }

  function DigitChar(d: nat): (c: char)
    requires d < 10
    ensures IsDigit(c)
    ensures c as int - '0' as int == d
  {
    ('0' as int + d) as char
  }

  function NatToString(n: nat): (r: string)
    ensures |r| >= 1
    ensures AllDigits(r)
    decreases n
  {
    if n < 10 then [DigitChar(n)] else NatToString(n / 10) + [DigitChar(n % 10)]
  }

  function IntToString(n: int): string {
    if n < 0 then "-" + NatToString(-n) else NatToString(n)
  }

  /** The value of a string of decimal digits (most significant first). */
  function DigitsValue(s: string): nat
    requires AllDigits(s)
  {
    if |s| == 0 then 0
    else DigitsValue(s[..|s| - 1]) * 10 + (s[|s| - 1] as int - '0' as int)
  }

  /** Decimal rendering is faithful: reading the digits back yields n. */
  lemma {:induction false} NatToStringRoundTrip(n: nat)
    ensures DigitsValue(NatToString(n)) == n
    decreases n
  {
    if n >= 10 {
      var s := NatToString(n);
      NatToStringRoundTrip(n / 10);
      assert s[..|s| - 1] == NatToString(n / 10);
    }
  }

  lemma NatToStringInjective(a: nat, b: nat)
    ensures NatToString(a) == NatToString(b) ==> a == b
  {
    NatToStringRoundTrip(a);
    NatToStringRoundTrip(b);
  }

  // ---------------------------------------------------------------------
  // Array.prototype.join

  function Join(parts: seq<string>, sep: string): (r: string)
    ensures |parts| == 0 ==> r == ""
    ensures |parts| == 1 ==> r == parts[0]
  {
    if |parts| == 0 then ""
    else if |parts| == 1 then parts[0]
    else parts[0] + sep + Join(parts[1..], sep)
  }

  /** Joining grows from the right as well: the last part follows one
      separator. */
  lemma {:induction false} JoinSnoc(parts: seq<string>, last: string, sep: string)
    requires |parts| >= 1
    ensures Join(parts + [last], sep) == Join(parts, sep) + sep + last
    decreases |parts|
  {
    if |parts| == 1 {
      assert (parts + [last])[1..] == [last];
    } else {
      assert (parts + [last])[1..] == parts[1..] + [last];
      JoinSnoc(parts[1..], last, sep);
    }
  }

  // ---------------------------------------------------------------------
  // Order-preserving filtering (Array.prototype.filter, list comprehensions)

  /** a occurs in b in the same order, possibly with gaps. */
  predicate IsSubsequence<T(==)>(a: seq<T>, b: seq<T>)
    decreases |b|
  {
    |a| == 0 ||
    (|b| > 0 &&
     ((a[0] == b[0] && IsSubsequence(a[1..], b[1..])) || IsSubsequence(a, b[1..])))
  }

  lemma {:induction false} SubsequenceRefl<T>(s: seq<T>)
    ensures IsSubsequence(s, s)
    decreases |s|
  {
    if |s| > 0 {
      SubsequenceRefl(s[1..]);
    }
  }

  /** Being a subsequence is transitive. */
  lemma {:induction false} SubsequenceTrans<T>(a: seq<T>, b: seq<T>, c: seq<T>)
    requires IsSubsequence(a, b) && IsSubsequence(b, c)
    ensures IsSubsequence(a, c)
    decreases |c|
  {
    if |a| == 0 {
    } else if |b| > 0 && |c| > 0 && b[0] == c[0] && IsSubsequence(b[1..], c[1..]) {
      if a[0] == b[0] && IsSubsequence(a[1..], b[1..]) {
        SubsequenceTrans(a[1..], b[1..], c[1..]);
      } else {
        SubsequenceTrans(a, b[1..], c[1..]);
      }
    } else {
      SubsequenceTrans(a, b, c[1..]);
    }
  }

  function Filter<T(==,!new)>(p: T -> bool, s: seq<T>): (r: seq<T>)
    ensures |r| <= |s|
    ensures forall i :: 0 <= i < |r| ==> p(r[i])
    ensures forall x :: x in r <==> x in s && p(x)
    ensures IsSubsequence(r, s)
    decreases |s|
  {
    if |s| == 0 then []
    else if p(s[0]) then
      var rest := Filter(p, s[1..]);
      assert ([s[0]] + rest)[1..] == rest;
      [s[0]] + rest
    else
      Filter(p, s[1..])
  }

  /** A filter keeps every copy of an element that passes, and none of one
      that fails. */
  lemma {:induction false} FilterCounts<T(!new)>(p: T -> bool, s: seq<T>)
    ensures forall x :: multiset(Filter(p, s))[x] == if p(x) then multiset(s)[x] else 0
    decreases |s|
  {
    if |s| > 0 {
      assert s == [s[0]] + s[1..];
      FilterCounts(p, s[1..]);
    }
  }

  /** A filter whose predicate holds everywhere keeps everything. */
  lemma {:induction false} FilterAll<T(!new)>(p: T -> bool, s: seq<T>)
    requires forall i :: 0 <= i < |s| ==> p(s[i])
    ensures Filter(p, s) == s
    decreases |s|
  {
    if |s| > 0 {
      FilterAll(p, s[1..]);
      assert [s[0]] + s[1..] == s;
    }
  }

  /** Two successive filters are one filter by the conjunction. */
  lemma {:induction false} FilterFilter<T(!new)>(p: T -> bool, q: T -> bool, pq: T -> bool, s: seq<T>)
    requires forall x :: pq(x) == (p(x) && q(x))
    ensures Filter(q, Filter(p, s)) == Filter(pq, s)
    decreases |s|
  {
    if |s| > 0 {
      FilterFilter(p, q, pq, s[1..]);
      if p(s[0]) {
        assert Filter(p, s) == [s[0]] + Filter(p, s[1..]);
        assert (Filter(p, s))[1..] == Filter(p, s[1..]);
      }
    }
  }

  /** Filters with pointwise-equal predicates agree. */
  lemma {:induction false} FilterExt<T(!new)>(p: T -> bool, q: T -> bool, s: seq<T>)
    requires forall x :: p(x) == q(x)
    ensures Filter(p, s) == Filter(q, s)
    decreases |s|
  {
    if |s| > 0 {
      FilterExt(p, q, s[1..]);
    }
  }

  // ---------------------------------------------------------------------
  // Plain JavaScript objects with string keys, in insertion order

  predicate HasKey<V>(obj: seq<(string, V)>, k: string) {
    exists j :: 0 <= j < |obj| && obj[j].0 == k
  }

  predicate DistinctKeys<V>(obj: seq<(string, V)>) {
    forall i, j :: 0 <= i < j < |obj| ==> obj[i].0 != obj[j].0
  }

  /** `obj[k] = v`: an existing key keeps its position and takes the new
      value; a new key is appended. */
  function Assign<V>(obj: seq<(string, V)>, k: string, v: V): (r: seq<(string, V)>)
    ensures |r| == if HasKey(obj, k) then |obj| else |obj| + 1
    ensures (k, v) in r
    ensures forall x :: HasKey(r, x) <==> HasKey(obj, x) || x == k
    ensures forall j :: 0 <= j < |r| && r[j].0 != k ==> r[j] in obj
    ensures forall j :: 0 <= j < |obj| && obj[j].0 != k ==> obj[j] in r
    ensures DistinctKeys(obj) ==> DistinctKeys(r)
    ensures HasKey(obj, k) ==> forall j :: 0 <= j < |obj| ==> r[j] == if obj[j].0 == k then (k, v) else obj[j]
    ensures !HasKey(obj, k) ==> r == obj + [(k, v)]
  {
    if HasKey(obj, k) then
      var r := seq(|obj|, i requires 0 <= i < |obj| => if obj[i].0 == k then (k, v) else obj[i]);
      assert forall i :: 0 <= i < |obj| ==> r[i].0 == obj[i].0;
      assert forall x :: HasKey(r, x) <==> HasKey(obj, x) by {
        forall x ensures HasKey(r, x) <==> HasKey(obj, x) {
          if HasKey(obj, x) {
            var j :| 0 <= j < |obj| && obj[j].0 == x;
            assert r[j].0 == x;
          }
        }
      }
      var j :| 0 <= j < |obj| && obj[j].0 == k;
      assert r[j] == (k, v);
      r
    else
      var r := obj + [(k, v)];
      assert r[|obj|] == (k, v);
      assert forall x :: HasKey(r, x) <==> HasKey(obj, x) || x == k by {
        forall x ensures HasKey(r, x) <==> HasKey(obj, x) || x == k {
          if HasKey(obj, x) {
            var j :| 0 <= j < |obj| && obj[j].0 == x;
            assert r[j].0 == x;
          }
          if HasKey(r, x) && x != k {
            var j :| 0 <= j < |r| && r[j].0 == x;
            assert obj[j].0 == x;
          }
        }
      }
      r
  }
}

=== FILE: passport.dfy ===
/** The passport picker (frontend/src/components/user_input/Passport.js):
    the options built from world.json, the option label, and the single
    chip that stands for the whole selection. */
module Passport {
  import opened Js
  import opened Records

  /** An option; `name` is its `label` field. */
  datatype CountryOption = CountryOption(name: Option<string>, iso2: string, callingCode: string)

  /** A selected value: an option, or (the Autocomplete is `freeSolo`) a
      typed string, whose `.label` is `undefined`. */
  datatype Selected = Picked(option: CountryOption) | Typed(text: string)

  function LabelOf(s: Selected): Option<string> {
    match s
    case Picked(o) => o.name
    case Typed(_) => None
  }

  function FlagOf(s: Selected): string {
    match s
    case Picked(o) => o.iso2
    case Typed(_) => "undefined"
  }

  /** The options after the world.json request: one per feature, or the
      initial empty list when some feature has no id (`id.toLowerCase()`
      throws and the `catch` only logs). */
  function CountryOptions(features: seq<Feature>): (options: seq<CountryOption>)
    ensures (exists i :: 0 <= i < |features| && features[i].id.None?) ==> options == []
    ensures (forall i :: 0 <= i < |features| ==> features[i].id.Some?) ==>
      |options| == |features| &&
      forall i :: 0 <= i < |features| ==>
        options[i].name == features[i].name &&
        options[i].iso2 == Lower(features[i].id.value) &&
        options[i].callingCode == OrElse(features[i].callingCode, "")
  {
    if exists i :: 0 <= i < |features| && features[i].id.None? then []
    else seq(|features|, i requires 0 <= i < |features| =>
               CountryOption(features[i].name, Lower(features[i].id.value), OrElse(features[i].callingCode, "")))
  }

  /** `getOptionLabel`: `option.label || ""`. */
  function OptionLabel(s: Selected): (text: string)
    ensures Present(LabelOf(s)) ==> text == LabelOf(s).value
    ensures !Present(LabelOf(s)) ==> text == ""
  {
    OrElse(LabelOf(s), "")
  }

  /** Every option's flag code is lower-case, and its label is the name of
      the feature it was built from, or "" when that is missing. */
  lemma OptionsFromFeatures(features: seq<Feature>, i: nat)
    requires forall j :: 0 <= j < |features| ==> features[j].id.Some?
    requires i < |features|
    ensures var options := CountryOptions(features);
            i < |options| &&
            Lower(options[i].iso2) == options[i].iso2 &&
            OptionLabel(Picked(options[i])) == OrElse(features[i].name, "")
  {
    LowerIdempotent(features[i].id.value);
  }

  /** The chip `renderTags` draws: its label, the flag code of its avatar,
      and the index whose tag props it takes. */
  datatype Chip = Chip(text: string, flag: string, tagIndex: nat)

  /** The count suffix: " +n" for n more selections. */
  function MoreSuffix(count: nat): string {
    if count > 1 then " +" + NatToString(count - 1) else ""
  }

  /** `renderTags`: nothing for an empty selection, otherwise one chip for
      the first selected country with the number of others. */
  function RenderTags(values: seq<Selected>): (chip: Option<Chip>)
    ensures chip.None? <==> |values| == 0
    ensures |values| == 1 ==> chip == Some(Chip(TextOf(LabelOf(values[0])), FlagOf(values[0]), 0))
    ensures |values| > 1 ==> chip == Some(Chip(TextOf(LabelOf(values[0])) + " +" + NatToString(|values| - 1), FlagOf(values[0]), 0))
  {
    if |values| == 0 then None
    else
      var first := TextOf(LabelOf(values[0]));
      assert first + "" == first;
      assert first + (" +" + NatToString(|values| - 1)) == first + " +" + NatToString(|values| - 1);
      Some(Chip(first + MoreSuffix(|values|), FlagOf(values[0]), 0))
  }

  /** Given the first country, the chip text tells how many countries are
      selected. */
  lemma ChipTextGivesCount(first: Selected, v1: seq<Selected>, v2: seq<Selected>)
    requires |v1| > 0 && |v2| > 0 && v1[0] == first && v2[0] == first
    ensures RenderTags(v1) == RenderTags(v2) <==> |v1| == |v2|
  {
    var base := TextOf(LabelOf(first));
    if RenderTags(v1) == RenderTags(v2) {
      var t1 := RenderTags(v1).value.text;
      var t2 := RenderTags(v2).value.text;
      if |v1| > 1 && |v2| > 1 {
        assert t1 == base + " +" + NatToString(|v1| - 1);
        assert t2 == base + " +" + NatToString(|v2| - 1);
        assert t1[|base| + 2..] == NatToString(|v1| - 1);
        assert t2[|base| + 2..] == NatToString(|v2| - 1);
        NatToStringInjective(|v1| - 1, |v2| - 1);
      }
    }
  }
}

=== FILE: pcp.dfy ===
/** The parallel-coordinates chart (frontend/src/components/PCP.js): the
    rows built from the flight offers and their weather, the dimensions
    read off the first row, the per-dimension extents, and the axis labels.

    JavaScript numbers are reals here; a value that is `NaN` or `undefined`
    is `None`. `Math.random()` draws are the `Noise` parameter, and the
    `i`-th weather request's outcome is `fetchTemp(i)`. */
module Pcp {
  import opened Js

  /** A `Math.random()` draw. */
  type Unit = r: real | 0.0 <= r < 1.0

  /** The five draws one row uses, in the order B (only when no weather is
      found), C, D, E, F. */
  datatype Noise = Noise(temperature: Unit, weather: Unit, safety: Unit, visaCoin: Unit, duration: Unit)

  /** An offer's `price` object; `total` may be undefined. */
  datatype Price = Price(total: Option<string>)

  /** A flight offer of the search response: `destination` and `price`
      (which may be undefined). */
  datatype Offer = Offer(destination: string, price: Option<Price>)

  /** `parseFloat(price.total)`: `parse` of the text, and `NaN` (`None`)
      when `total` is undefined. */
  function ParsedPrice(price: Price, parse: string -> Option<real>): (a: Option<real>)
    ensures price.total.None? ==> a.None?
    ensures price.total.Some? ==> a == parse(price.total.value)
  {
    match price.total
    case None => None
    case Some(text) => parse(text)
  }

  /** `{ iataCode, temperature: weatherData.average_temperature }`. */
  datatype WeatherEntry = WeatherEntry(iataCode: string, temperature: Option<real>)

  /** One entry of `updatedData`. */
  datatype Row = Row(name: string, a: Option<real>, b: Option<real>, c: real, d: real, e: real, f: real)

  /** The keys of a row, in insertion order. */
  const RowKeys: seq<string> := ["name", "A", "B", "C", "D", "E", "F"]

  /** The keys that carry values. */
  const ValueKeys: seq<string> := ["A", "B", "C", "D", "E", "F"]

  /** The generated columns lie in the ranges of their draws. */
  predicate InRange(row: Row) {
    0.0 <= row.c < 100.0 && 0.0 <= row.d < 10.0 && 0.0 <= row.f < 15.0 && (row.e == 0.0 || row.e == 1.0)
  }

  /** `weatherData.find(w => w.iataCode === code)`: the first entry for the
      code. */
  function FindWeather(weather: seq<WeatherEntry>, code: string): (found: Option<nat>)
    ensures found.None? <==> forall i :: 0 <= i < |weather| ==> weather[i].iataCode != code
    ensures found.Some? ==> found.value < |weather| && weather[found.value].iataCode == code &&
                            forall j :: 0 <= j < found.value ==> weather[j].iataCode != code
    decreases |weather|
  {
    if |weather| == 0 then None
    else if weather[0].iataCode == code then Some(0)
    else
      match FindWeather(weather[1..], code)
      case None => None
      case Some(k) => Some(k + 1)
  }

  /** The row for one offer, or `None` when the offer has no `price`
      (reading `item.price.total` throws). */
  function UpdatedRow(item: Offer, weather: seq<WeatherEntry>, parse: string -> Option<real>, noise: Noise): (row: Option<Row>)
    ensures row.None? <==> item.price.None?
    ensures row.Some? ==> row.value.name == item.destination
    ensures row.Some? ==> row.value.a == ParsedPrice(item.price.value, parse)
    ensures row.Some? ==>
            match FindWeather(weather, item.destination)
            case Some(k) => row.value.b == weather[k].temperature
            case None => row.value.b.Some? && 0.0 <= row.value.b.value < 40.0
    ensures row.Some? ==> InRange(row.value)
    ensures row.Some? ==> (row.value.e == 1.0 <==> noise.visaCoin > 0.5)
  {
    match item.price
    case None => None
    case Some(price) =>
      Some(Row(item.destination,
               ParsedPrice(price, parse),
               match FindWeather(weather, item.destination)
               case Some(k) => weather[k].temperature
               case None => Some(noise.temperature * 40.0),
               noise.weather * 100.0,
               noise.safety * 10.0,
               if noise.visaCoin > 0.5 then 1.0 else 0.0,
               noise.duration * 15.0))
  }

  /** The weather list `Promise.all` resolves to: one entry per offer, in
      offer order; `None` when some request failed (the `catch` then leaves
      the data as it was). */
  function WeatherData(result: seq<Offer>, fetchTemp: nat -> Option<Option<real>>): (weather: Option<seq<WeatherEntry>>)
    ensures weather.None? <==> exists i :: 0 <= i < |result| && fetchTemp(i).None?
    ensures weather.Some? ==> (|weather.value| == |result| &&
      forall i :: 0 <= i < |result| ==> weather.value[i] == WeatherEntry(result[i].destination, fetchTemp(i).value))
  {
    if exists i :: 0 <= i < |result| && fetchTemp(i).None? then None
    else Some(seq(|result|, i requires 0 <= i < |result| => WeatherEntry(result[i].destination, fetchTemp(i).value)))
  }

  /** The flights response is an array, every weather request succeeded
      and every offer has a `price`: the only case in which the `try`
      block reaches `setData`. */
  predicate Complete(result: Option<seq<Offer>>, fetchTemp: nat -> Option<Option<real>>) {
    result.Some? && forall i :: 0 <= i < |result.value| ==> fetchTemp(i).Some? && result.value[i].price.Some?
  }

  /** The chart data after a fetch: the new rows, or the previous data when
      the flights response is not an array (a failed request or a 404
      body), a weather request failed, or an offer has no `price`; each of
      these throws inside the `try` and the `catch` only logs. */
  function Refresh(previous: seq<Row>, result: Option<seq<Offer>>, fetchTemp: nat -> Option<Option<real>>,
                   parse: string -> Option<real>, noise: nat -> Noise): (data: seq<Row>)
    ensures !Complete(result, fetchTemp) ==> data == previous
    ensures Complete(result, fetchTemp) ==> (|data| == |result.value| &&
      forall i :: 0 <= i < |result.value| ==>
        data[i].name == result.value[i].destination &&
        data[i].a == ParsedPrice(result.value[i].price.value, parse) && InRange(data[i]))
  {
    match result
    case None => previous
    case Some(offers) =>
      match WeatherData(offers, fetchTemp)
      case None => previous
      case Some(weather) =>
        if exists i :: 0 <= i < |offers| && offers[i].price.None? then previous
        else
          var rows := seq(|offers|, i requires 0 <= i < |offers| => UpdatedRow(offers[i], weather, parse, noise(i)).value);
          assert forall i :: 0 <= i < |offers| ==> rows[i] == UpdatedRow(offers[i], weather, parse, noise(i)).value;
          rows
  }

  /** Every offer finds its own weather entry, so the random temperature is
      never used: row `i` takes the temperature fetched for the first offer
      with the same destination. */
  lemma TemperatureAlwaysFetched(previous: seq<Row>, result: Option<seq<Offer>>, fetchTemp: nat -> Option<Option<real>>,
                                 parse: string -> Option<real>, noise: nat -> Noise, i: nat)
    requires Complete(result, fetchTemp)
    requires i < |result.value|
    ensures var offers := result.value;
            var data := Refresh(previous, result, fetchTemp, parse, noise);
            exists j :: 0 <= j <= i && offers[j].destination == offers[i].destination &&
                        data[i].b == fetchTemp(j).value &&
                        forall k :: 0 <= k < j ==> offers[k].destination != offers[i].destination
  {
    var offers := result.value;
    var weather := WeatherData(offers, fetchTemp).value;
    var data := Refresh(previous, result, fetchTemp, parse, noise);
    assert data[i] == UpdatedRow(offers[i], weather, parse, noise(i)).value;
    assert weather[i].iataCode == offers[i].destination;
    var j := FindWeather(weather, offers[i].destination).value;
    assert j <= i;
    assert data[i].b == fetchTemp(j).value;
    forall k | 0 <= k < j ensures offers[k].destination != offers[i].destination {
      assert weather[k].iataCode != offers[i].destination;
    }
  }

  /** With distinct destinations each row carries its own fetched
      temperature. */
  lemma DistinctDestinationsOwnTemperature(previous: seq<Row>, result: Option<seq<Offer>>, fetchTemp: nat -> Option<Option<real>>,
                                           parse: string -> Option<real>, noise: nat -> Noise, i: nat)
    requires Complete(result, fetchTemp)
    requires forall j, k :: 0 <= j < k < |result.value| ==> result.value[j].destination != result.value[k].destination
    requires i < |result.value|
    ensures Refresh(previous, result, fetchTemp, parse, noise)[i].b == fetchTemp(i).value
  {
    TemperatureAlwaysFetched(previous, result, fetchTemp, parse, noise, i);
  }

  // ---------------------------------------------------------------------
  // The chart

  /** `row[dim]` for the numeric keys; anything else reads `undefined`. */
  function Value(row: Row, dim: string): Option<real> {
    if dim == "A" then row.a
    else if dim == "B" then row.b
    else if dim == "C" then Some(row.c)
    else if dim == "D" then Some(row.d)
    else if dim == "E" then Some(row.e)
    else if dim == "F" then Some(row.f)
    else None
  }

  /** `Object.keys(data[0]).filter(d => d !== "name")`, or `None` when there
      is no data (the drawing effect returns early). */
  function Dimensions(data: seq<Row>): (dims: Option<seq<string>>)
    ensures dims.None? <==> |data| == 0
    ensures dims.Some? ==> forall k :: k in dims.value <==> k in RowKeys && k != "name"
  {
    if |data| == 0 then None else Some(Filter((k: string) => k != "name", RowKeys))
  }

  /** The axes are the six value keys, in row order. */
  lemma DimensionsAreValueKeys(data: seq<Row>)
    requires |data| > 0
    ensures Dimensions(data) == Some(ValueKeys)
  {
    var p := (k: string) => k != "name";
    assert RowKeys == ["name"] + ValueKeys;
    FilterAll(p, ValueKeys);
  }

  function Lo(e: (real, real)): real { e.0 }
  function Hi(e: (real, real)): real { e.1 }

  /** `d3.extent`: the least and greatest defined value, skipping `NaN` and
      `undefined`; `None` when there is none. */
  function Extent(vals: seq<Option<real>>): (e: Option<(real, real)>)
    ensures e.None? <==> forall i :: 0 <= i < |vals| ==> vals[i].None?
    ensures e.Some? ==> Lo(e.value) <= Hi(e.value)
    ensures e.Some? ==> forall i :: 0 <= i < |vals| && vals[i].Some? ==> Lo(e.value) <= vals[i].value <= Hi(e.value)
    ensures e.Some? ==> (exists i :: 0 <= i < |vals| && vals[i] == Some(Lo(e.value))) &&
                        (exists i :: 0 <= i < |vals| && vals[i] == Some(Hi(e.value)))
    decreases |vals|
  {
    if |vals| == 0 then None
    else
      var rest := Extent(vals[1..]);
      assert forall i :: 1 <= i < |vals| ==> vals[i] == vals[1..][i - 1];
      match vals[0]
      case None =>
        assert rest.Some? ==> exists i :: 0 <= i < |vals| && vals[i] == Some(Lo(rest.value));
        assert rest.Some? ==> exists i :: 0 <= i < |vals| && vals[i] == Some(Hi(rest.value));
        rest
      case Some(v) =>
        match rest
        case None => Some((v, v))
        case Some(r) =>
          var lo := if v < Lo(r) then v else Lo(r);
          var hi := if v > Hi(r) then v else Hi(r);
          assert exists i :: 0 <= i < |vals| && vals[i] == Some(lo);
          assert exists i :: 0 <= i < |vals| && vals[i] == Some(hi);
          Some((lo, hi))
  }

  /** The defined values lie within [lo, hi] and both ends occur. */
  predicate AttainedBounds(vals: seq<Option<real>>, lo: real, hi: real) {
    (forall i :: 0 <= i < |vals| && vals[i].Some? ==> lo <= vals[i].value <= hi) &&
    (exists i :: 0 <= i < |vals| && vals[i] == Some(lo)) &&
    (exists i :: 0 <= i < |vals| && vals[i] == Some(hi))
  }

  lemma AttainedBoundsUnique(vals: seq<Option<real>>, lo: real, hi: real, lo': real, hi': real)
    requires AttainedBounds(vals, lo, hi) && AttainedBounds(vals, lo', hi')
    ensures lo == lo' && hi == hi'
  {
    var i :| 0 <= i < |vals| && vals[i] == Some(lo);
    var j :| 0 <= j < |vals| && vals[j] == Some(hi);
    var i' :| 0 <= i' < |vals| && vals[i'] == Some(lo');
    var j' :| 0 <= j' < |vals| && vals[j'] == Some(hi');
    assert lo' <= vals[i].value && lo <= vals[i'].value;
    assert vals[j].value <= hi' && vals[j'].value <= hi;
  }

  /** Any pair of attained bounds of the defined values is the extent. */
  lemma ExtentUnique(vals: seq<Option<real>>, lo: real, hi: real)
    requires forall i :: 0 <= i < |vals| && vals[i].Some? ==> lo <= vals[i].value <= hi
    requires (exists i :: 0 <= i < |vals| && vals[i] == Some(lo)) && (exists i :: 0 <= i < |vals| && vals[i] == Some(hi))
    ensures Extent(vals) == Some((lo, hi))
  {
    var i :| 0 <= i < |vals| && vals[i] == Some(lo);
    var e := Extent(vals);
    assert e.Some? by {
      assert vals[i].Some?;
    }
    var r := e.value;
    assert AttainedBounds(vals, Lo(r), Hi(r));
    AttainedBoundsUnique(vals, lo, hi, Lo(r), Hi(r));
  }

  /** The extent depends only on which values occur, not on their order
      or repetition. */
  lemma ExtentOrderIndependent(vals: seq<Option<real>>, others: seq<Option<real>>)
    requires forall x :: x in vals <==> x in others
    ensures Extent(vals) == Extent(others)
  {
    var e := Extent(vals);
    if e.Some? {
      var r := e.value;
      var a :| 0 <= a < |vals| && vals[a] == Some(Lo(r));
      var b :| 0 <= b < |vals| && vals[b] == Some(Hi(r));
      assert vals[a] in others && vals[b] in others;
      forall k | 0 <= k < |others| && others[k].Some? ensures Lo(r) <= others[k].value <= Hi(r) {
        assert others[k] in vals;
      }
      ExtentUnique(others, Lo(r), Hi(r));
    } else {
      forall k | 0 <= k < |others| ensures others[k].None? {
        assert others[k] in vals;
      }
    }
  }

  function Column(data: seq<Row>, dim: string): (column: seq<Option<real>>)
    ensures |column| == |data|
    ensures forall i :: 0 <= i < |data| ==> column[i] == Value(data[i], dim)
  {
    seq(|data|, i requires 0 <= i < |data| => Value(data[i], dim))
  }

  /** `customLabels[d] || d` for a key that is not a property `customLabels`
      inherits (such as "constructor"); the dimensions are always A to F,
      so no inherited name reaches it. */
  function AxisLabel(dim: string): (text: string)
    ensures dim == "A" ==> text == "Price"
    ensures dim == "B" ==> text == "Temperature"
    ensures dim == "C" ==> text == "Weather"
    ensures dim == "D" ==> text == "Safety"
    ensures dim == "E" ==> text == "Visa Requirements"
    ensures dim == "F" ==> text == "Flight Duration"
    ensures dim !in {"A", "B", "C", "D", "E", "F"} ==> text == dim
  {
    if dim == "A" then "Price"
    else if dim == "B" then "Temperature"
    else if dim == "C" then "Weather"
    else if dim == "D" then "Safety"
    else if dim == "E" then "Visa Requirements"
    else if dim == "F" then "Flight Duration"
    else dim
  }

  /** Different axes get different labels. */
  lemma AxisLabelsDistinct(d1: string, d2: string)
    requires d1 in ValueKeys && d2 in ValueKeys
    ensures AxisLabel(d1) == AxisLabel(d2) ==> d1 == d2
  {
  }

  /** One axis: its key, its label, and the y-scale domain (`None` when the
      column has no defined value). The range is [height - margin.bottom,
      margin.top] = [350, 40] for every axis. */
  datatype Axis = Axis(dim: string, title: string, domain: Option<(real, real)>)

  function Axes(data: seq<Row>, dims: seq<string>): (axes: seq<Axis>)
    ensures |axes| == |dims|
    ensures forall i :: 0 <= i < |dims| ==>
      axes[i] == Axis(dims[i], AxisLabel(dims[i]), Extent(Column(data, dims[i])))
  {
    seq(|dims|, i requires 0 <= i < |dims| => Axis(dims[i], AxisLabel(dims[i]), Extent(Column(data, dims[i]))))
  }

  /** The chart drawn for the data, or `None` when there is no data: one
      axis per value key, in row order, labelled and scaled to the
      column's extent. */
  function Chart(data: seq<Row>): (axes: Option<seq<Axis>>)
    ensures axes.None? <==> |data| == 0
    ensures axes.Some? ==> (|axes.value| == |ValueKeys| &&
      forall i :: 0 <= i < |ValueKeys| ==>
        axes.value[i] == Axis(ValueKeys[i], AxisLabel(ValueKeys[i]), Extent(Column(data, ValueKeys[i]))))
  {
    match Dimensions(data)
    case None => None
    case Some(dims) =>
      DimensionsAreValueKeys(data);
      Some(Axes(data, dims))
  }

  /** A column of defined values within [lo, hi) has an extent within it. */
  lemma ExtentWithin(vals: seq<Option<real>>, lo: real, hi: real)
    requires |vals| > 0
    requires forall i :: 0 <= i < |vals| ==> vals[i].Some? && lo <= vals[i].value < hi
    ensures Extent(vals).Some?
    ensures lo <= Lo(Extent(vals).value) && Hi(Extent(vals).value) < hi
  {
    assert vals[0].Some?;
    var r := Extent(vals).value;
    var a :| 0 <= a < |vals| && vals[a] == Some(Lo(r));
    var b :| 0 <= b < |vals| && vals[b] == Some(Hi(r));
  }

  /** The generated Weather, Safety and Flight Duration axes stay within
      the ranges of their random draws: [0, 100), [0, 10) and [0, 15). */
  lemma NoiseAxesBounded(previous: seq<Row>, result: Option<seq<Offer>>, fetchTemp: nat -> Option<Option<real>>,
                         parse: string -> Option<real>, noise: nat -> Noise)
    requires Complete(result, fetchTemp)
    requires |result.value| > 0
    ensures var axes := Chart(Refresh(previous, result, fetchTemp, parse, noise)).value;
            axes[2].domain.Some? && 0.0 <= Lo(axes[2].domain.value) && Hi(axes[2].domain.value) < 100.0 &&
            axes[3].domain.Some? && 0.0 <= Lo(axes[3].domain.value) && Hi(axes[3].domain.value) < 10.0 &&
            axes[5].domain.Some? && 0.0 <= Lo(axes[5].domain.value) && Hi(axes[5].domain.value) < 15.0
  {
    var data := Refresh(previous, result, fetchTemp, parse, noise);
    ChartBounded(data);
  }

  /** The Weather, Safety and Flight Duration domains of rows in range. */
  lemma ChartBounded(data: seq<Row>)
    requires |data| > 0
    requires forall i :: 0 <= i < |data| ==> InRange(data[i])
    ensures var axes := Chart(data).value;
            axes[2].domain.Some? && 0.0 <= Lo(axes[2].domain.value) && Hi(axes[2].domain.value) < 100.0 &&
            axes[3].domain.Some? && 0.0 <= Lo(axes[3].domain.value) && Hi(axes[3].domain.value) < 10.0 &&
            axes[5].domain.Some? && 0.0 <= Lo(axes[5].domain.value) && Hi(axes[5].domain.value) < 15.0
  {
    var axes := Chart(data).value;
    assert ValueKeys[2] == "C" && ValueKeys[3] == "D" && ValueKeys[5] == "F";
    assert axes[2].domain == Extent(Column(data, "C"));
    assert axes[3].domain == Extent(Column(data, "D"));
    assert axes[5].domain == Extent(Column(data, "F"));
    ColumnWithin(data, "C", 0.0, 100.0);
    ColumnWithin(data, "D", 0.0, 10.0);
    ColumnWithin(data, "F", 0.0, 15.0);
  }

  lemma ColumnWithin(data: seq<Row>, dim: string, lo: real, hi: real)
    requires |data| > 0 && dim in {"C", "D", "F"}
    requires forall i :: 0 <= i < |data| ==> InRange(data[i])
    requires dim == "C" ==> lo == 0.0 && hi == 100.0
    requires dim == "D" ==> lo == 0.0 && hi == 10.0
    requires dim == "F" ==> lo == 0.0 && hi == 15.0
    ensures Extent(Column(data, dim)).Some?
    ensures lo <= Lo(Extent(Column(data, dim)).value) && Hi(Extent(Column(data, dim)).value) < hi
  {
    var column := Column(data, dim);
    forall i | 0 <= i < |column| ensures column[i].Some? && lo <= column[i].value < hi {
      assert InRange(data[i]);
    }
    ExtentWithin(column, lo, hi);
  }

  /** The hover tooltip of a line: the row's name only. */
  function LineTooltip(row: Row): (html: string)
    ensures |html| == |row.name| + 17
    ensures html[..8] == "<strong>" && html[|html| - 9..] == "</strong>"
    ensures html[8..|html| - 9] == row.name
  {
    "<strong>" + row.name + "</strong>"
  }
}

=== FILE: records.dfy ===
/** The two kinds of record the globe views work on: a country polygon of
    world.json (a GeoJSON feature) and a trip result record as the search
    returns it. Every optional JSON field is an `Option`; `None` is
    `undefined`. */
module Records {
  import opened Js

  /** A world.json feature. `name` is `properties.name`, `upperName` is
      `properties.NAME` (both spellings occur in the views), `isoA2` is
      `properties.ISO_A2`. */
  datatype Feature = Feature(
    id: Option<string>,
    name: Option<string>,
    upperName: Option<string>,
    isoA2: Option<string>,
    callingCode: Option<string>)

  /** The per-trip parallel-coordinates payload (`trip.pcp`). */
  datatype PcpInfo = PcpInfo(
    safety: Scalar,
    weather: Scalar,
    temp: Scalar,
    duration: Scalar,
    visaDetails: Option<seq<(string, Scalar)>>)

  /** A trip's `destination_info`: `country_name`, `iso_code` and
      `city_name`. */
  datatype DestinationInfo = DestinationInfo(
    countryName: Option<string>,
    isoCode: Option<string>,
    cityName: Option<string>)

  /** A trip result record: `destination`, `destination_info` (which may be
      undefined), `price.total` and `pcp`. */
  datatype Trip = Trip(
    destination: string,
    info: Option<DestinationInfo>,
    priceTotal: Scalar,
    pcp: Option<PcpInfo>)

  /** `trip.destination_info?.country_name`. */
  function CountryName(t: Trip): Option<string> {
    if t.info.Some? then t.info.value.countryName else None
  }

  /** `trip.destination_info?.iso_code`. */
  function IsoCode(t: Trip): Option<string> {
    if t.info.Some? then t.info.value.isoCode else None
  }

  /** `trip.destination_info?.city_name`. */
  function CityName(t: Trip): Option<string> {
    if t.info.Some? then t.info.value.cityName else None
  }

  /** Every record carries `destination_info`, so the views that read it
      without `?.` do not throw. */
  predicate AllCarryInfo(data: seq<Trip>) {
    forall i :: 0 <= i < |data| ==> data[i].info.Some?
  }

  /** One trip's block in a hover tooltip: the "city (IATA)" heading and
      the price line. */
  datatype TripSection = TripSection(heading: string, price: string)

  /** The property key JavaScript uses for `obj[feature.id]`: an undefined
      id is converted to the key "undefined". */
  function IdKey(f: Feature): string {
    match f.id
    case Some(s) => s
    case None => "undefined"
  }

  /** Lookup of a JavaScript object (a finite map) by key. */
  function Get<V>(m: map<string, V>, key: string): Option<V> {
    if key in m then Some(m[key]) else None
  }
}

=== FILE: visa.dfy ===
/** Visa requirements: the fixed priority table, the two "worst requirement
    across passports" folds (frontend/src/components/globe/GlobeGL.js and
    frontend/src/components/globe/GlobeVisa.js), the visa fill colours, the
    hover text and the assembly of the per-passport requirement tables. */
module Visa {
  import opened Js

  /** The eight keys of `visaPriority`, in priority order. */
  datatype VisaTier =
    | Unknown | HomeCountry | VisaFree | DayLimit | Eta | EVisa | OnArrival | Required

  /** The keys of `visaPriority` in the order the object lists them. */
  const PriorityOrder: seq<VisaTier> := [Unknown, HomeCountry, VisaFree, DayLimit, Eta, EVisa, OnArrival, Required]

  /** `visaPriority[label]`: a tier's priority is its position in the
      listing. */
  function Rank(t: VisaTier): (r: nat)
    ensures r < |PriorityOrder| && PriorityOrder[r] == t
  {
    match t
    case Unknown => 0
    case HomeCountry => 1
    case VisaFree => 2
    case DayLimit => 3
    case Eta => 4
    case EVisa => 5
    case OnArrival => 6
    case Required => 7
  }

  function TierLabel(t: VisaTier): string {
    match t
    case Unknown => "unknown"
    case HomeCountry => "home country"
    case VisaFree => "visa free"
    case DayLimit => "visa with day limit"
    case Eta => "eta"
    case EVisa => "e-visa"
    case OnArrival => "visa on arrival"
    case Required => "visa required"
  }

  /** Ranks are distinct, so the priority table is a strict total order. */
  lemma RankInjective(a: VisaTier, b: VisaTier)
    ensures Rank(a) == Rank(b) ==> a == b
  {
  }

  /** `visaPriority[s]`: the tier a requirement string is a key for, if any. */
  function TierOfLabel(s: string): (r: Option<VisaTier>)
    ensures r.Some? ==> TierLabel(r.value) == s
    ensures r.None? ==> forall t: VisaTier :: TierLabel(t) != s
  {
    if s == "unknown" then Some(Unknown)
    else if s == "home country" then Some(HomeCountry)
    else if s == "visa free" then Some(VisaFree)
    else if s == "visa with day limit" then Some(DayLimit)
    else if s == "eta" then Some(Eta)
    else if s == "e-visa" then Some(EVisa)
    else if s == "visa on arrival" then Some(OnArrival)
    else if s == "visa required" then Some(Required)
    else None
  }

  /** One passport's requirement table, by destination country id. A
      requirement is a label (Str), a day count (Num) or absent. */
  type RequirementTable = map<string, Scalar>

  /** `visaData`: passport code to that passport's table (possibly
      undefined), in key order. */
  type VisaData = seq<(string, Option<RequirementTable>)>

  /** `requirements && requirements[countryId]`, as a scalar. */
  function Entry(reqs: Option<RequirementTable>, countryId: string): Scalar {
    match reqs
    case None => Undefined
    case Some(m) => if countryId in m then m[countryId] else Undefined
  }

  /** The tier a requirement competes with in GlobeGL: a positive day count
      counts as "visa with day limit", a string counts when it is a priority
      key, everything else never wins a comparison. */
  function PromoteGL(req: Scalar): (tier: Option<VisaTier>)
    ensures req.Num? ==> (tier.Some? <==> req.number > 0)
    ensures tier.Some? && req.Num? ==> tier.value == DayLimit
    ensures tier.Some? && !req.Num? ==> req.Str? && TierLabel(tier.value) == req.text
    ensures req.Str? && tier.None? ==> forall t: VisaTier :: TierLabel(t) != req.text
  {
    match req
    case Num(n) => if n > 0 then Some(DayLimit) else None
    case Str(s) => TierOfLabel(s)
    case Undefined => None
  }

  /** The tier a requirement competes with in GlobeVisa: numbers are not
      priority keys, so only strings can count. */
  function PromoteVisa(req: Scalar): (tier: Option<VisaTier>)
    ensures tier.Some? ==> req.Str? && TierLabel(tier.value) == req.text
    ensures req.Str? && tier.None? ==> forall t: VisaTier :: TierLabel(t) != req.text
  {
    match req
    case Str(s) => TierOfLabel(s)
    case _ => None
  }

  /** The two promotions differ exactly on positive day counts, which only
      GlobeGL lets compete (as "visa with day limit"). */
  lemma PromotionsDifferOnDayCounts(req: Scalar)
    ensures PromoteGL(req) != PromoteVisa(req) <==> req.Num? && req.number > 0
    ensures PromoteVisa(req).Some? ==> PromoteGL(req) == PromoteVisa(req)
  {
  }

  predicate AtMost(c: Option<VisaTier>, t: VisaTier) {
    c.None? || Rank(c.value) <= Rank(t)
  }

  /** The loop of both `getWorstVisaRequirement`s over already-promoted
      candidates: the running worst is replaced only by a strictly
      higher-ranked tier. The result is the maximum of the start and the
      candidates. */
  function FoldWorst(worst: VisaTier, cands: seq<Option<VisaTier>>): (r: VisaTier)
    ensures Rank(worst) <= Rank(r)
    ensures forall i :: 0 <= i < |cands| ==> AtMost(cands[i], r)
    ensures r == worst || Some(r) in cands
    decreases |cands|
  {
    if |cands| == 0 then worst
    else
      var next := if cands[0].Some? && Rank(cands[0].value) > Rank(worst) then cands[0].value else worst;
      FoldWorst(next, cands[1..])
  }

  function CandidatesGL(visaData: VisaData, countryId: string): (c: seq<Option<VisaTier>>)
    ensures |c| == |visaData|
    ensures forall i :: 0 <= i < |c| ==> c[i] == PromoteGL(Entry(visaData[i].1, countryId))
  {
    seq(|visaData|, i requires 0 <= i < |visaData| => PromoteGL(Entry(visaData[i].1, countryId)))
  }

  function CandidatesVisa(visaData: VisaData, countryId: string): (c: seq<Option<VisaTier>>)
    ensures |c| == |visaData|
    ensures forall i :: 0 <= i < |c| ==> c[i] == PromoteVisa(Entry(visaData[i].1, countryId))
  {
    seq(|visaData|, i requires 0 <= i < |visaData| => PromoteVisa(Entry(visaData[i].1, countryId)))
  }

  /** GlobeGL's `getWorstVisaRequirement`: the highest-priority tier any
      passport has for the country, "unknown" when none has one. */
  function WorstVisaRequirementGL(visaData: VisaData, countryId: string): (r: VisaTier)
    ensures forall i :: 0 <= i < |visaData| ==> AtMost(PromoteGL(Entry(visaData[i].1, countryId)), r)
    ensures r == Unknown || exists i :: 0 <= i < |visaData| && PromoteGL(Entry(visaData[i].1, countryId)) == Some(r)
  {
    var c := CandidatesGL(visaData, countryId);
    var r := FoldWorst(Unknown, c);
    assert r != Unknown ==> exists i :: 0 <= i < |c| && c[i] == Some(r);
    r
  }

  /** GlobeVisa's `getWorstVisaRequirement`: the same fold without the
      numeric promotion. */
  function WorstVisaRequirement(visaData: VisaData, countryId: string): (r: VisaTier)
    ensures forall i :: 0 <= i < |visaData| ==> AtMost(PromoteVisa(Entry(visaData[i].1, countryId)), r)
    ensures r == Unknown || exists i :: 0 <= i < |visaData| && PromoteVisa(Entry(visaData[i].1, countryId)) == Some(r)
  {
    var c := CandidatesVisa(visaData, countryId);
    var r := FoldWorst(Unknown, c);
    assert r != Unknown ==> exists i :: 0 <= i < |c| && c[i] == Some(r);
    r
  }

  /** The characterisation in the contracts above pins the result down: a
      tier that bounds every candidate and is "unknown" or one of them is
      the maximum, and there is only one. */
  lemma MaxIsUnique(cands: seq<Option<VisaTier>>, a: VisaTier, b: VisaTier)
    requires forall i :: 0 <= i < |cands| ==> AtMost(cands[i], a) && AtMost(cands[i], b)
    requires a == Unknown || Some(a) in cands
    requires b == Unknown || Some(b) in cands
    ensures a == b
  {
    if a != Unknown {
      var i :| 0 <= i < |cands| && cands[i] == Some(a);
    }
    if b != Unknown {
      var i :| 0 <= i < |cands| && cands[i] == Some(b);
    }
    RankInjective(a, b);
  }

  /** The worst requirement depends only on which tables are present, not on
      the order of the passports (nor on repeats). */
  lemma {:induction false} WorstGLOrderIndependent(d1: VisaData, d2: VisaData, countryId: string)
    requires forall e :: e in d1 <==> e in d2
    ensures WorstVisaRequirementGL(d1, countryId) == WorstVisaRequirementGL(d2, countryId)
  {
    var a := WorstVisaRequirementGL(d1, countryId);
    var b := WorstVisaRequirementGL(d2, countryId);
    var c := CandidatesGL(d1, countryId);
    forall i | 0 <= i < |c| ensures AtMost(c[i], b) {
      assert d1[i] in d2;
      var j :| 0 <= j < |d2| && d2[j] == d1[i];
    }
    if b != Unknown {
      var j :| 0 <= j < |d2| && PromoteGL(Entry(d2[j].1, countryId)) == Some(b);
      assert d2[j] in d1;
      var i :| 0 <= i < |d1| && d1[i] == d2[j];
      assert c[i] == Some(b);
    }
    if a != Unknown {
      var i :| 0 <= i < |d1| && PromoteGL(Entry(d1[i].1, countryId)) == Some(a);
      assert c[i] == Some(a);
    }
    MaxIsUnique(c, a, b);
  }

  /** "unknown" whenever no passport has a truthy entry for the country,
      in particular with no passports at all. */
  lemma NoEntriesGiveUnknown(visaData: VisaData, countryId: string)
    requires forall i :: 0 <= i < |visaData| ==> !Entry(visaData[i].1, countryId).Truthy()
    ensures WorstVisaRequirementGL(visaData, countryId) == Unknown
    ensures WorstVisaRequirement(visaData, countryId) == Unknown
  {
  }

  /** Appending a passport whose entry does not promote (a negative or zero
      number, a label outside the table, a missing table or entry) never
      changes GlobeGL's result. */
  lemma IgnoredEntryGL(visaData: VisaData, extra: (string, Option<RequirementTable>), countryId: string)
    requires PromoteGL(Entry(extra.1, countryId)).None?
    ensures WorstVisaRequirementGL(visaData + [extra], countryId) == WorstVisaRequirementGL(visaData, countryId)
  {
    var d := visaData + [extra];
    var a := WorstVisaRequirementGL(d, countryId);
    var b := WorstVisaRequirementGL(visaData, countryId);
    var c := CandidatesGL(d, countryId);
    assert forall i :: 0 <= i < |visaData| ==> d[i] == visaData[i];
    if b != Unknown {
      var i :| 0 <= i < |visaData| && PromoteGL(Entry(visaData[i].1, countryId)) == Some(b);
      assert c[i] == Some(b);
    }
    if a != Unknown {
      var i :| 0 <= i < |d| && PromoteGL(Entry(d[i].1, countryId)) == Some(a);
      assert c[i] == Some(a);
    }
    MaxIsUnique(c, a, b);
  }

  /** GlobeGL never reports a lower tier than GlobeVisa, and the two agree
      when no passport has a positive day count for the country. */
  lemma GLDominatesVisa(visaData: VisaData, countryId: string)
    ensures Rank(WorstVisaRequirement(visaData, countryId)) <= Rank(WorstVisaRequirementGL(visaData, countryId))
    ensures (forall i :: 0 <= i < |visaData| ==> !Entry(visaData[i].1, countryId).Num?)
            ==> WorstVisaRequirement(visaData, countryId) == WorstVisaRequirementGL(visaData, countryId)
  {
    var v := WorstVisaRequirement(visaData, countryId);
    var g := WorstVisaRequirementGL(visaData, countryId);
    if v != Unknown {
      var i :| 0 <= i < |visaData| && PromoteVisa(Entry(visaData[i].1, countryId)) == Some(v);
      assert PromoteGL(Entry(visaData[i].1, countryId)) == Some(v);
    }
    if forall i :: 0 <= i < |visaData| ==> !Entry(visaData[i].1, countryId).Num? {
      var c := CandidatesGL(visaData, countryId);
      assert forall i :: 0 <= i < |visaData| ==>
        PromoteGL(Entry(visaData[i].1, countryId)) == PromoteVisa(Entry(visaData[i].1, countryId));
      if v != Unknown {
        var i :| 0 <= i < |visaData| && PromoteVisa(Entry(visaData[i].1, countryId)) == Some(v);
        assert c[i] == Some(v);
      }
      if g != Unknown {
        var i :| 0 <= i < |visaData| && PromoteGL(Entry(visaData[i].1, countryId)) == Some(g);
        assert c[i] == Some(g);
      }
      MaxIsUnique(c, v, g);
    }
  }

  /** A passport allowed 90 days and the home-country passport (-1): GlobeGL
      reports "visa with day limit", GlobeVisa ignores both numbers and
      reports "unknown". */
  lemma DayLimitOutranksHomeCountry()
    ensures var d: VisaData := [("US", Some(map["FR" := Num(90)])), ("FR", Some(map["FR" := Num(-1)]))];
            WorstVisaRequirementGL(d, "FR") == DayLimit && WorstVisaRequirement(d, "FR") == Unknown
  {
    var d: VisaData := [("US", Some(map["FR" := Num(90)])), ("FR", Some(map["FR" := Num(-1)]))];
    var g := WorstVisaRequirementGL(d, "FR");
    assert PromoteGL(Entry(d[0].1, "FR")) == Some(DayLimit);
    assert PromoteGL(Entry(d[1].1, "FR")) == None;
    assert PromoteVisa(Entry(d[0].1, "FR")) == None;
    assert PromoteVisa(Entry(d[1].1, "FR")) == None;
  }

  // ---------------------------------------------------------------------
  // GlobeVisa fill colours

  const NeutralFill: string := "#4d4c60"

  /** The colour of a country on the visa globe, from its worst tier. */
  function VisaFill(t: VisaTier): (colour: string)
    ensures t == VisaFree ==> colour == "#4CAF50"
    ensures t == Required ==> colour == "#C70039"
    ensures t == EVisa ==> colour == "#FF5733"
    ensures t == OnArrival ==> colour == "#fef018"
    ensures t == Eta ==> colour == "#DAF7A6"
    ensures colour == NeutralFill <==> t in {Unknown, HomeCountry, DayLimit}
  {
    match t
    case VisaFree => "#4CAF50"
    case Required => "#C70039"
    case EVisa => "#FF5733"
    case OnArrival => "#fef018"
    case Eta => "#DAF7A6"
    case _ => NeutralFill
  }

  /** Distinct coloured tiers get distinct colours. */
  lemma VisaFillDistinguishesColouredTiers(a: VisaTier, b: VisaTier)
    ensures VisaFill(a) == VisaFill(b) && VisaFill(a) != NeutralFill ==> a == b
  {
  }

  /** The visa globe's fill of a country: its worst tier's colour. A
      positive day count never colours a country on this globe. */
  function CountryVisaFill(visaData: VisaData, countryId: string): (colour: string)
    ensures (forall i :: 0 <= i < |visaData| ==> !Entry(visaData[i].1, countryId).Str?) ==> colour == NeutralFill
    ensures colour != NeutralFill ==>
      exists i :: 0 <= i < |visaData| && Entry(visaData[i].1, countryId).Str?
  {
    VisaFill(WorstVisaRequirement(visaData, countryId))
  }

  // ---------------------------------------------------------------------
  // GlobeVisa hover text

  /** The text shown for one passport's requirement. */
  function RequirementText(req: Scalar): (text: string)
    ensures !req.Truthy() ==> text == "No Data"
    ensures req.Str? && req.Truthy() ==> text == req.text
    ensures req.Num? && req.number > 0 ==> text == NatToString(req.number) + " days of Visa Free travel"
    ensures req.Num? && req.number < 0 ==> text == "home country"
  {
    match req
    case Str(s) => if s == "" then "No Data" else s
    case Num(n) =>
      if n > 0 then NatToString(n) + " days of Visa Free travel"
      else if n < 0 then "home country"
      else "No Data"
    case Undefined => "No Data"
  }

  /** The day count can be read back from the text it produces. */
  lemma DaysTextNamesCount(n: nat)
    requires n > 0
    ensures var text := RequirementText(Num(n));
            var k := |NatToString(n)|;
            k <= |text| && AllDigits(text[..k]) && DigitsValue(text[..k]) == n
  {
    var text := RequirementText(Num(n));
    assert text[..|NatToString(n)|] == NatToString(n);
    NatToStringRoundTrip(n);
  }

  /** `countryNames[passport] || passport`. */
  function PassportLabel(countryNames: map<string, Option<string>>, passport: string): (shown: string)
    ensures passport in countryNames && Present(countryNames[passport]) ==> shown == countryNames[passport].value
    ensures !(passport in countryNames && Present(countryNames[passport])) ==> shown == passport
  {
    if passport in countryNames then OrElse(countryNames[passport], passport) else passport
  }

  /** One passport's line: "label: requirement text". */
  function PassportLine(countryNames: map<string, Option<string>>, passport: string, table: Option<RequirementTable>,
                        countryId: string): string {
    PassportLabel(countryNames, passport) + ": " + RequirementText(Entry(table, countryId))
  }

  /** One tooltip line per passport, in key order; `None` when some
      passport's table is undefined (reading `requirements[d.id]` throws). */
  function VisaTooltipLines(visaData: VisaData, countryNames: map<string, Option<string>>, countryId: string): (lines: Option<seq<string>>)
    ensures lines.None? <==> exists i :: 0 <= i < |visaData| && visaData[i].1.None?
    ensures lines.Some? ==> |lines.value| == |visaData|
    ensures lines.Some? ==> forall i :: 0 <= i < |visaData| ==>
      lines.value[i] == PassportLine(countryNames, visaData[i].0, visaData[i].1, countryId)
  {
    if exists i :: 0 <= i < |visaData| && visaData[i].1.None? then None
    else Some(seq(|visaData|, i requires 0 <= i < |visaData| => PassportLine(countryNames, visaData[i].0, visaData[i].1, countryId)))
  }

  /** The hover text: the lines joined with "<br>". */
  function VisaTooltip(visaData: VisaData, countryNames: map<string, Option<string>>, countryId: string): (text: Option<string>)
    ensures text.None? <==> exists i :: 0 <= i < |visaData| && visaData[i].1.None?
    ensures |visaData| == 0 ==> text == Some("")
    ensures |visaData| == 1 && visaData[0].1.Some? ==>
      text == Some(PassportLine(countryNames, visaData[0].0, visaData[0].1, countryId))
  {
    match VisaTooltipLines(visaData, countryNames, countryId)
    case None => None
    case Some(lines) => Some(Join(lines, "<br>"))
  }

  /** Adding a passport with a table adds its line at the end of the list. */
  lemma VisaTooltipLinesSnoc(visaData: VisaData, extra: (string, Option<RequirementTable>),
                             countryNames: map<string, Option<string>>, countryId: string)
    requires VisaTooltipLines(visaData, countryNames, countryId).Some? && extra.1.Some?
    ensures VisaTooltipLines(visaData + [extra], countryNames, countryId) ==
      Some(VisaTooltipLines(visaData, countryNames, countryId).value +
           [PassportLine(countryNames, extra.0, extra.1, countryId)])
  {
    var d := visaData + [extra];
    var lines := VisaTooltipLines(visaData, countryNames, countryId).value;
    var line := PassportLine(countryNames, extra.0, extra.1, countryId);
    assert forall i :: 0 <= i < |visaData| ==> d[i] == visaData[i];
    assert !exists i :: 0 <= i < |d| && d[i].1.None?;
    var all := VisaTooltipLines(d, countryNames, countryId).value;
    assert |all| == |lines| + 1;
    forall i | 0 <= i < |all| ensures all[i] == (lines + [line])[i] {
      if i < |lines| {
        assert d[i] == visaData[i];
      } else {
        assert d[i] == extra;
      }
    }
    assert all == lines + [line];
  }

  /** Adding a passport adds exactly one "<br>"-separated line at the end. */
  lemma VisaTooltipSnoc(visaData: VisaData, extra: (string, Option<RequirementTable>),
                        countryNames: map<string, Option<string>>, countryId: string)
    requires |visaData| >= 1
    requires VisaTooltip(visaData, countryNames, countryId).Some? && extra.1.Some?
    ensures VisaTooltip(visaData + [extra], countryNames, countryId) ==
      Some(VisaTooltip(visaData, countryNames, countryId).value + "<br>" +
           PassportLine(countryNames, extra.0, extra.1, countryId))
  {
    var lines := VisaTooltipLines(visaData, countryNames, countryId).value;
    var line := PassportLine(countryNames, extra.0, extra.1, countryId);
    VisaTooltipLinesSnoc(visaData, extra, countryNames, countryId);
    JoinSnoc(lines, line, "<br>");
  }

  // ---------------------------------------------------------------------
  // GlobeVisa: assembling `allVisaData`

  /** The response of the visa endpoint: `data.requirements`, which may be
      undefined. */
  datatype VisaResponse = VisaResponse(requirements: Option<map<string, RequirementTable>>)

  /** A request that answered with data lacking `requirements`: reading
      `data.requirements[countryCode]` throws a TypeError. */
  predicate MissingRequirements(answer: Option<VisaResponse>) {
    answer.Some? && answer.value.requirements.None?
  }

  /** `data.requirements[countryCode]`, for a response that has
      `requirements`. */
  function TableFor(resp: VisaResponse, code: string): Option<RequirementTable> {
    if resp.requirements.None? then None else
    if code in resp.requirements.value then Some(resp.requirements.value[code]) else None
  }

  /** Among the first n codes, the last successful fetch for key k gave table v. */
  ghost predicate LastFetchGives(codes: seq<string>, fetched: nat -> Option<VisaResponse>, n: nat,
                                 k: string, v: Option<RequirementTable>)
    requires n <= |codes|
  {
    exists i :: 0 <= i < n && codes[i] == k && fetched(i).Some? && v == TableFor(fetched(i).value, k) &&
      forall i' :: i < i' < n && codes[i'] == k ==> fetched(i').None?
  }

  ghost predicate FetchedSome(codes: seq<string>, fetched: nat -> Option<VisaResponse>, n: nat, k: string)
    requires n <= |codes|
  {
    exists i :: 0 <= i < n && codes[i] == k && fetched(i).Some?
  }

  /** What the loop below knows after the first n passport codes. */
  ghost predicate AssembledUpTo(codes: seq<string>, fetched: nat -> Option<VisaResponse>, n: nat, data: VisaData)
    requires n <= |codes|
  {
    && DistinctKeys(data)
    && (forall k :: HasKey(data, k) <==> FetchedSome(codes, fetched, n, k))
    && (forall j :: 0 <= j < |data| ==> LastFetchGives(codes, fetched, n, data[j].0, data[j].1))
  }

  /** A failed request leaves the assembled object as it is. */
  lemma SkipFailedFetch(codes: seq<string>, fetched: nat -> Option<VisaResponse>, n: nat, data: VisaData)
    requires n < |codes| && fetched(n).None?
    requires AssembledUpTo(codes, fetched, n, data)
    ensures AssembledUpTo(codes, fetched, n + 1, data)
  {
    forall k ensures FetchedSome(codes, fetched, n, k) <==> FetchedSome(codes, fetched, n + 1, k) {
      if FetchedSome(codes, fetched, n + 1, k) {
        var i :| 0 <= i < n + 1 && codes[i] == k && fetched(i).Some?;
      }
    }
    forall j | 0 <= j < |data| ensures LastFetchGives(codes, fetched, n + 1, data[j].0, data[j].1) {
      assert LastFetchGives(codes, fetched, n, data[j].0, data[j].1);
      var i :| 0 <= i < n && codes[i] == data[j].0 && fetched(i).Some? && data[j].1 == TableFor(fetched(i).value, data[j].0) &&
        forall i' :: i < i' < n && codes[i'] == data[j].0 ==> fetched(i').None?;
      assert forall i' :: i < i' < n + 1 && codes[i'] == data[j].0 ==> fetched(i').None?;
    }
  }

  /** A successful request assigns its table to the passport's key. */
  lemma AssignFetchedTable(codes: seq<string>, fetched: nat -> Option<VisaResponse>, n: nat, data: VisaData)
    requires n < |codes| && fetched(n).Some?
    requires AssembledUpTo(codes, fetched, n, data)
    ensures AssembledUpTo(codes, fetched, n + 1, Assign(data, codes[n], TableFor(fetched(n).value, codes[n])))
  {
    var code := codes[n];
    var table := TableFor(fetched(n).value, code);
    var next := Assign(data, code, table);
    forall k ensures HasKey(next, k) <==> FetchedSome(codes, fetched, n + 1, k) {
      if FetchedSome(codes, fetched, n + 1, k) && k != code {
        var i :| 0 <= i < n + 1 && codes[i] == k && fetched(i).Some?;
        assert FetchedSome(codes, fetched, n, k);
      }
      if k == code {
        assert codes[n] == k && fetched(n).Some?;
      }
    }
    forall j | 0 <= j < |next| ensures LastFetchGives(codes, fetched, n + 1, next[j].0, next[j].1) {
      if j < |data| && data[j].0 != code {
        assert next[j] == data[j];
        assert LastFetchGives(codes, fetched, n, data[j].0, data[j].1);
        var i :| 0 <= i < n && codes[i] == data[j].0 && fetched(i).Some? && data[j].1 == TableFor(fetched(i).value, data[j].0) &&
          forall i' :: i < i' < n && codes[i'] == data[j].0 ==> fetched(i').None?;
        assert forall i' :: i < i' < n + 1 && codes[i'] == data[j].0 ==> fetched(i').None?;
      } else {
        assert next[j] == (code, table);
        assert 0 <= n < n + 1 && codes[n] == code && fetched(n).Some? && next[j].1 == TableFor(fetched(n).value, code);
      }
    }
  }

  /** Among the first n requests, one for key a succeeded before any for key
      b did. */
  ghost predicate FetchedBefore(codes: seq<string>, fetched: nat -> Option<VisaResponse>, n: nat, a: string, b: string)
    requires n <= |codes|
  {
    exists i :: 0 <= i < n && codes[i] == a && fetched(i).Some? && !FetchedSome(codes, fetched, i + 1, b)
  }

  /** The keys stand in the order of their first successful request, as
      JavaScript keeps the insertion order of (non-integer) keys. */
  ghost predicate KeysInFetchOrder(codes: seq<string>, fetched: nat -> Option<VisaResponse>, n: nat, data: VisaData)
    requires n <= |codes|
  {
    forall j1, j2 :: 0 <= j1 < j2 < |data| ==> FetchedBefore(codes, fetched, n, data[j1].0, data[j2].0)
  }

  /** Neither a failed request nor a new table for a known key moves a key;
      a new key goes after all others. */
  lemma StepKeepsKeyOrder(codes: seq<string>, fetched: nat -> Option<VisaResponse>, n: nat, data: VisaData)
    requires n < |codes|
    requires AssembledUpTo(codes, fetched, n, data) && KeysInFetchOrder(codes, fetched, n, data)
    ensures fetched(n).None? ==> KeysInFetchOrder(codes, fetched, n + 1, data)
    ensures fetched(n).Some? ==>
              KeysInFetchOrder(codes, fetched, n + 1, Assign(data, codes[n], TableFor(fetched(n).value, codes[n])))
  {
    forall a, b | FetchedBefore(codes, fetched, n, a, b) ensures FetchedBefore(codes, fetched, n + 1, a, b) {
      var i :| 0 <= i < n && codes[i] == a && fetched(i).Some? && !FetchedSome(codes, fetched, i + 1, b);
      assert 0 <= i < n + 1 && codes[i] == a && fetched(i).Some? && !FetchedSome(codes, fetched, i + 1, b);
    }
    if fetched(n).Some? {
      var code := codes[n];
      var next := Assign(data, code, TableFor(fetched(n).value, code));
      if HasKey(data, code) {
        assert forall j :: 0 <= j < |data| ==> next[j].0 == data[j].0;
      } else {
        assert next == data + [(code, TableFor(fetched(n).value, code))];
        forall j1, j2 | 0 <= j1 < j2 < |next| ensures FetchedBefore(codes, fetched, n + 1, next[j1].0, next[j2].0) {
          if j2 == |data| {
            var a := data[j1].0;
            assert HasKey(data, a);
            var i :| 0 <= i < n && codes[i] == a && fetched(i).Some?;
            assert 0 <= i < n + 1 && codes[i] == a && fetched(i).Some? && !FetchedSome(codes, fetched, i + 1, code);
          } else {
            assert FetchedBefore(codes, fetched, n, data[j1].0, data[j2].0);
          }
        }
      }
    }
  }

  /** One turn of the loop: a successful n-th request assigns its table to
      the passport's key, and a failed one changes nothing. */
  function AssembleStep(codes: seq<string>, fetched: nat -> Option<VisaResponse>, n: nat, data: VisaData): (next: VisaData)
    requires n < |codes|
    requires AssembledUpTo(codes, fetched, n, data) && KeysInFetchOrder(codes, fetched, n, data)
    ensures AssembledUpTo(codes, fetched, n + 1, next) && KeysInFetchOrder(codes, fetched, n + 1, next)
  {
    StepKeepsKeyOrder(codes, fetched, n, data);
    match fetched(n)
    case None =>
      SkipFailedFetch(codes, fetched, n, data);
      data
    case Some(resp) =>
      AssignFetchedTable(codes, fetched, n, data);
      Assign(data, codes[n], TableFor(resp, codes[n]))
  }

  /** `fetchVisaForMultiplePassports`: the i-th passport code's request
      answered `fetched(i)` (None for a failed request). The result is
      `None` where `setVisaData` is never reached and the previous state
      stays: no passport codes, or an answer without `requirements`.
      Otherwise only passports whose request returned data get an entry,
      holding the table of the last such request, in the order of their
      first successful request. */
  method AllVisaData(codes: seq<string>, fetched: nat -> Option<VisaResponse>) returns (data: Option<VisaData>)
    ensures data.None? <==> |codes| == 0 || exists i :: 0 <= i < |codes| && MissingRequirements(fetched(i))
    ensures data.Some? ==> DistinctKeys(data.value)
    ensures data.Some? ==> forall k :: HasKey(data.value, k) <==> FetchedSome(codes, fetched, |codes|, k)
    ensures data.Some? ==> forall j :: 0 <= j < |data.value| ==> LastFetchGives(codes, fetched, |codes|, data.value[j].0, data.value[j].1)
    ensures data.Some? ==> KeysInFetchOrder(codes, fetched, |codes|, data.value)
  {
    if |codes| == 0 || exists i :: 0 <= i < |codes| && MissingRequirements(fetched(i)) {
      return None;
    }
    var all: VisaData := [];
    var n := 0;
    while n < |codes|
      invariant 0 <= n <= |codes|
      invariant AssembledUpTo(codes, fetched, n, all) && KeysInFetchOrder(codes, fetched, n, all)
      decreases |codes| - n
    {
      all := AssembleStep(codes, fetched, n, all);
      n := n + 1;
    }
    return Some(all);
  }

  // ---------------------------------------------------------------------
  // GlobeVisa hover HTML

  /** The bold country name that opens the hover HTML; a missing name
      renders as "undefined". */
  function HoverHeading(name: Option<string>): string {
    "<strong>" + TextOf(name) + "</strong><br>"
  }

  /** The `mouseenter` HTML: the country's name in bold, a line break, then
      the passport lines; `None` where building the lines throws. */
  function VisaHoverHtml(name: Option<string>, visaData: VisaData, countryNames: map<string, Option<string>>,
                         countryId: string): (html: Option<string>)
    ensures html.None? <==> exists i :: 0 <= i < |visaData| && visaData[i].1.None?
    ensures html.Some? ==> |html.value| >= |HoverHeading(name)| && html.value[..|HoverHeading(name)|] == HoverHeading(name)
    ensures html.Some? ==> html.value[|HoverHeading(name)|..] == VisaTooltip(visaData, countryNames, countryId).value
  {
    match VisaTooltip(visaData, countryNames, countryId)
    case None => None
    case Some(text) =>
      var heading := HoverHeading(name);
      assert (heading + text)[..|heading|] == heading;
      assert (heading + text)[|heading|..] == text;
      Some(heading + text)
  }

  /** A country without a name is headed by the word "undefined". */
  lemma NamelessHoverShowsUndefined(visaData: VisaData, countryNames: map<string, Option<string>>, countryId: string)
    requires VisaHoverHtml(None, visaData, countryNames, countryId).Some?
    ensures var html := VisaHoverHtml(None, visaData, countryNames, countryId).value;
            |html| >= 30 && html[..30] == "<strong>undefined</strong><br>"
  {
    assert HoverHeading(None) == "<strong>undefined</strong><br>";
  }

  /** Two countries with the same passport lines get the same hover exactly
      when their names render alike, so a nameless country and one named
      "undefined" cannot be told apart. */
  lemma HoverHtmlNamesCountry(name1: Option<string>, name2: Option<string>, visaData: VisaData,
                              countryNames: map<string, Option<string>>, countryId: string)
    requires VisaHoverHtml(name1, visaData, countryNames, countryId).Some?
    ensures VisaHoverHtml(name1, visaData, countryNames, countryId) == VisaHoverHtml(name2, visaData, countryNames, countryId)
            <==> TextOf(name1) == TextOf(name2)
  {
    var text := VisaTooltip(visaData, countryNames, countryId).value;
    var a, b := TextOf(name1), TextOf(name2);
    var h1, h2 := HoverHeading(name1), HoverHeading(name2);
    assert VisaHoverHtml(name1, visaData, countryNames, countryId) == Some(h1 + text);
    assert VisaHoverHtml(name2, visaData, countryNames, countryId) == Some(h2 + text);
    if h1 + text == h2 + text {
      assert h1 == (h1 + text)[..|h1|];
      assert h2 == (h2 + text)[..|h2|];
      assert a == h1[8..8 + |a|];
      assert b == h2[8..8 + |b|];
    }
  }
}

=== FILE: weather.dfy ===
/** The two classifiers of the climate script (backend/data/weather.py):
    a mean wind speed in m/s to its Beaufort number and name, and mean
    cloud cover, radiation, rain and snow to a sky description. Speeds and
    measurements are reals; `NaN` is not modelled. */
module Weather {
  import opened Js

  // ---------------------------------------------------------------------
  // Beaufort scale

  /** The lower limit of Beaufort numbers 1 to 12, in m/s. */
  const BandLimits: seq<real> := [0.3, 1.6, 3.4, 5.5, 8.0, 10.8, 13.9, 17.2, 20.8, 24.5, 28.5, 32.7]

  const BeaufortNames: seq<string> := [
    "Calm", "Light Air", "Light Breeze", "Gentle Breeze", "Moderate Breeze", "Fresh Breeze",
    "Strong Breeze", "Near Gale", "Gale", "Strong Gale", "Whole Gale", "Storm Force", "Hurricane Force"]

  /** `classify_wind`: the Beaufort number is the count of band limits the
      speed reaches, and the name is that number's name. */
  function ClassifyWind(speed: real): (r: (nat, string))
    ensures r.0 <= 12
    ensures r.1 == BeaufortNames[r.0]
    ensures forall i :: 0 <= i < |BandLimits| ==> (BandLimits[i] <= speed <==> i < r.0)
  {
    if speed < 0.3 then (0, "Calm")
    else if speed < 1.6 then (1, "Light Air")
    else if speed < 3.4 then (2, "Light Breeze")
    else if speed < 5.5 then (3, "Gentle Breeze")
    else if speed < 8.0 then (4, "Moderate Breeze")
    else if speed < 10.8 then (5, "Fresh Breeze")
    else if speed < 13.9 then (6, "Strong Breeze")
    else if speed < 17.2 then (7, "Near Gale")
    else if speed < 20.8 then (8, "Gale")
    else if speed < 24.5 then (9, "Strong Gale")
    else if speed < 28.5 then (10, "Whole Gale")
    else if speed < 32.7 then (11, "Storm Force")
    else (12, "Hurricane Force")
  }

  /** A stronger wind never gets a lower Beaufort number. */
  lemma ClassifyWindMonotone(s1: real, s2: real)
    requires s1 <= s2
    ensures ClassifyWind(s1).0 <= ClassifyWind(s2).0
  {
  }

  /** Each Beaufort number covers the half-open band between its limits. */
  lemma ClassifyWindBand(speed: real)
    ensures var n := ClassifyWind(speed).0;
            (n == 0 ==> speed < BandLimits[0]) &&
            (n == 12 ==> BandLimits[11] <= speed) &&
            (0 < n < 12 ==> BandLimits[n - 1] <= speed < BandLimits[n])
  {
  }

  /** The name tells the number. */
  lemma BeaufortNamesDistinct(s1: real, s2: real)
    ensures ClassifyWind(s1).1 == ClassifyWind(s2).1 ==> ClassifyWind(s1).0 == ClassifyWind(s2).0
  {
  }

  // ---------------------------------------------------------------------
  // Sky conditions

  const SunnyCloudCover: real := 40.0
  const CloudyCloudCover: real := 70.0
  const HighSunnyRadiation: real := 15.0
  const LowSunnyRadiation: real := 10.0
  const RainThreshold: real := 2.0
  const SnowThreshold: real := 1.0

  datatype Sky = Sunny | Cloudy | PartlyCloudy

  /** The first branch of `classify_weather`. */
  function SkyOf(cloudCover: real, radiation: real): (sky: Sky)
    ensures sky == Sunny <==> cloudCover <= SunnyCloudCover && radiation > HighSunnyRadiation
    ensures sky == Cloudy <==> cloudCover > CloudyCloudCover && radiation < LowSunnyRadiation
  {
    if cloudCover <= SunnyCloudCover && radiation > HighSunnyRadiation then Sunny
    else if cloudCover > CloudyCloudCover && radiation < LowSunnyRadiation then Cloudy
    else PartlyCloudy
  }

  function SkyText(sky: Sky): string {
    match sky
    case Sunny => "Sunny \U{2600}\U{FE0F} "
    case Cloudy => "Cloudy \U{2601}\U{FE0F} "
    case PartlyCloudy => "Partly Cloudy \U{1F324} "
  }

  const RainySuffix: string := " & Rainy"
  const SnowySuffix: string := " & Snowy"

  /** `classify_weather`: the sky text, then " & Rainy" when rain exceeds
      2, then " & Snowy" when snow exceeds 1. */
  function ClassifyWeather(cloudCover: real, radiation: real, rain: real, snow: real): (weather: string)
    ensures |SkyText(SkyOf(cloudCover, radiation))| <= |weather|
    ensures weather[..|SkyText(SkyOf(cloudCover, radiation))|] == SkyText(SkyOf(cloudCover, radiation))
    ensures |weather| == |SkyText(SkyOf(cloudCover, radiation))| + (if rain > RainThreshold then 8 else 0) + (if snow > SnowThreshold then 8 else 0)
  {
    var weather := SkyText(SkyOf(cloudCover, radiation));
    var weather := if rain > RainThreshold then weather + RainySuffix else weather;
    if snow > SnowThreshold then weather + SnowySuffix else weather
  }

  /** What a description says: the sky, and whether it is rainy and snowy. */
  function Describe(cloudCover: real, radiation: real, rain: real, snow: real): (Sky, bool, bool) {
    (SkyOf(cloudCover, radiation), rain > RainThreshold, snow > SnowThreshold)
  }

  /** The text of a description, built as `classify_weather` builds it. */
  function Render(d: (Sky, bool, bool)): string {
    SkyText(d.0) + (if d.1 then RainySuffix else "") + (if d.2 then SnowySuffix else "")
  }

  /** The sky text a description starts with. */
  function ParseSky(weather: string): (sky: Option<Sky>)
    ensures sky.Some? ==> |SkyText(sky.value)| <= |weather| && weather[..|SkyText(sky.value)|] == SkyText(sky.value)
  {
    if |SkyText(Sunny)| <= |weather| && weather[..|SkyText(Sunny)|] == SkyText(Sunny) then Some(Sunny)
    else if |SkyText(Cloudy)| <= |weather| && weather[..|SkyText(Cloudy)|] == SkyText(Cloudy) then Some(Cloudy)
    else if |SkyText(PartlyCloudy)| <= |weather| && weather[..|SkyText(PartlyCloudy)|] == SkyText(PartlyCloudy) then Some(PartlyCloudy)
    else None
  }

  /** The rain and snow suffixes after the sky text. */
  function ParseSuffixes(rest: string): (flags: Option<(bool, bool)>)
    ensures flags.Some? ==> rest == (if flags.value.0 then RainySuffix else "") + (if flags.value.1 then SnowySuffix else "")
  {
    if rest == "" then Some((false, false))
    else if rest == RainySuffix then Some((true, false))
    else if rest == SnowySuffix then Some((false, true))
    else if rest == RainySuffix + SnowySuffix then Some((true, true))
    else None
  }

  /** Reading a description back into what it says. */
  function ParseWeather(weather: string): (parsed: Option<(Sky, bool, bool)>)
    ensures parsed.Some? ==> Render(parsed.value) == weather
  {
    match ParseSky(weather)
    case None => None
    case Some(sky) =>
      var rest := weather[|SkyText(sky)|..];
      assert weather == SkyText(sky) + rest;
      match ParseSuffixes(rest)
      case None => None
      case Some(flags) => Some((sky, flags.0, flags.1))
  }

  /** `classify_weather` renders exactly what the measurements describe. */
  lemma ClassifyIsRender(cloudCover: real, radiation: real, rain: real, snow: real)
    ensures ClassifyWeather(cloudCover, radiation, rain, snow) == Render(Describe(cloudCover, radiation, rain, snow))
  {
  }

  /** Parsing a rendered description gives it back. */
  lemma ParseRender(d: (Sky, bool, bool))
    ensures ParseWeather(Render(d)) == Some(d)
  {
    var w := Render(d);
    var suffix := (if d.1 then RainySuffix else "") + (if d.2 then SnowySuffix else "");
    assert w == SkyText(d.0) + suffix;
    assert w[..|SkyText(d.0)|] == SkyText(d.0);
    assert w[|SkyText(d.0)|..] == suffix;
    assert ParseSky(w) == Some(d.0) by {
      if d.0 != Sunny {
        assert w[0] != SkyText(Sunny)[0];
      }
      if d.0 == PartlyCloudy {
        assert w[0] != SkyText(Cloudy)[0];
      }
    }
  }

  /** Classifying and parsing back recovers the sky, rain and snow
      verdicts; so two measurements get the same description exactly when
      they agree on all three. */
  lemma ParseClassifyRoundTrip(cloudCover: real, radiation: real, rain: real, snow: real)
    ensures ParseWeather(ClassifyWeather(cloudCover, radiation, rain, snow)) == Some(Describe(cloudCover, radiation, rain, snow))
  {
    ClassifyIsRender(cloudCover, radiation, rain, snow);
    ParseRender(Describe(cloudCover, radiation, rain, snow));
  }

  lemma SameDescriptionIff(m1: (real, real, real, real), m2: (real, real, real, real))
    ensures ClassifyWeather(m1.0, m1.1, m1.2, m1.3) == ClassifyWeather(m2.0, m2.1, m2.2, m2.3) <==>
            Describe(m1.0, m1.1, m1.2, m1.3) == Describe(m2.0, m2.1, m2.2, m2.3)
  {
    ParseClassifyRoundTrip(m1.0, m1.1, m1.2, m1.3);
    ParseClassifyRoundTrip(m2.0, m2.1, m2.2, m2.3);
  }
}

=== FILE: weather_card.dfy ===
/** The weather card of the dashboard
    (frontend/src/components/card/WeatherCard.js): the icon chosen for a
    weather string and the texts shown for the selected destination. */
module WeatherCard {
  import opened Js
  import opened Records
  import Weather

  datatype Icon = WbSunny | FilterDrama | Cloud | Thunderstorm | AcUnit

  /** The colour each icon is drawn in. */
  function IconColour(i: Icon): string {
    match i
    case WbSunny => "#FFD700"
    case FilterDrama => "#87CEEB"
    case Cloud => "#A9A9A9"
    case Thunderstorm => "#4682B4"
    case AcUnit => "#E0FFFF"
  }

  /** The five weather strings the card has an icon for. */
  const IconLabels: seq<string> := ["Sunny", "Partly Clouded", "Cloudy", "Rainy", "Snowy"]

  /** `getWeatherIcon`: an exact match on the five labels, the sun
      otherwise (also for a number or `undefined`). */
  function WeatherIcon(weather: Scalar): (icon: Icon)
    ensures weather == Str("Partly Clouded") <==> icon == FilterDrama
    ensures weather == Str("Cloudy") <==> icon == Cloud
    ensures weather == Str("Rainy") <==> icon == Thunderstorm
    ensures weather == Str("Snowy") <==> icon == AcUnit
    ensures icon == WbSunny <==> !(weather.Str? && weather.text in IconLabels[1..])
  {
    match weather
    case Str(s) =>
      if s == "Sunny" then WbSunny
      else if s == "Partly Clouded" then FilterDrama
      else if s == "Cloudy" then Cloud
      else if s == "Rainy" then Thunderstorm
      else if s == "Snowy" then AcUnit
      else WbSunny
    case _ => WbSunny
  }

  /** The icons of the five labels are pairwise distinct but for the
      default, which is the "Sunny" icon. */
  lemma IconsDistinct(a: string, b: string)
    requires a in IconLabels && b in IconLabels
    ensures WeatherIcon(Str(a)) == WeatherIcon(Str(b)) <==> a == b
  {
  }

  /** None of the climate script's sky descriptions is one of the five
      labels, so each of them is drawn with the default sun icon. */
  lemma ClassifiedWeatherShowsSun(cloudCover: real, radiation: real, rain: real, snow: real)
    ensures Weather.ClassifyWeather(cloudCover, radiation, rain, snow) !in IconLabels
    ensures WeatherIcon(Str(Weather.ClassifyWeather(cloudCover, radiation, rain, snow))) == WbSunny
  {
    var w := Weather.ClassifyWeather(cloudCover, radiation, rain, snow);
    assert |w| >= 9;
    assert |w| != 14;
  }

  /** What the card body shows. */
  datatype View =
    | Prompt
    | Details(heading: string, icon: Icon, temperature: string, weatherText: string,
              duration: string, price: string)

  /** The card for the selected destination, the prompt when none is
      selected, or `None` when the selected record has no
      `destination_info` (reading its `city_name` throws). Dates are not
      modelled. */
  function Card(selected: Option<Trip>): (card: Option<View>)
    ensures card == Some(Prompt) <==> selected.None?
    ensures card.None? <==> selected.Some? && selected.value.info.None?
    ensures card.Some? && selected.Some? ==> var t := selected.value; var view := card.value;
      view.heading == JsxText(t.info.value.cityName) + ", " + JsxText(t.info.value.countryName) &&
      (t.pcp.None? ==> view.icon == WbSunny && view.weatherText == "Unknown" && view.duration == "N/A days" &&
                       view.temperature == "°C") &&
      (t.pcp.Some? ==> view.icon == WeatherIcon(t.pcp.value.weather) &&
                       view.weatherText == ScalarOr(t.pcp.value.weather, "Unknown") &&
                       view.duration == ScalarOr(t.pcp.value.duration, "N/A") + " days") &&
      view.price == "£" + ScalarOr(t.priceTotal, "N/A")
  {
    match selected
    case None => Some(Prompt)
    case Some(t) =>
      match t.info
      case None => None
      case Some(info) =>
        var weather := if t.pcp.Some? then t.pcp.value.weather else Undefined;
        var temp := if t.pcp.Some? then t.pcp.value.temp else Undefined;
        var duration := if t.pcp.Some? then t.pcp.value.duration else Undefined;
        Some(Details(
          JsxText(info.cityName) + ", " + JsxText(info.countryName),
          WeatherIcon(weather),
          JsxScalar(temp) + "°C",
          ScalarOr(weather, "Unknown"),
          ScalarOr(duration, "N/A") + " days",
          "£" + ScalarOr(t.priceTotal, "N/A")))
  }

  /** What JSX renders for a scalar child: `undefined` renders nothing. */
  function JsxScalar(v: Scalar): (shown: string)
    ensures v.Undefined? ==> shown == ""
    ensures !v.Undefined? ==> shown == v.Render()
  {
    if v.Undefined? then "" else v.Render()
  }

  /** The weather text is never empty: a falsy weather reads "Unknown". */
  lemma WeatherTextNonEmpty(selected: Option<Trip>)
    requires selected.Some? && selected.value.info.Some?
    ensures |Card(selected).value.weatherText| > 0
    ensures Card(selected).value.weatherText == "Unknown" <==>
      selected.value.pcp.None? || !selected.value.pcp.value.weather.Truthy() ||
      selected.value.pcp.value.weather == Str("Unknown")
  {
    var t := selected.value;
    if t.pcp.Some? && t.pcp.value.weather.Truthy() {
      match t.pcp.value.weather
      case Str(s) =>
      case Num(n) => NumberTextIsDigits(n);
      case Undefined =>
    }
  }

  /** A rendered number is never the word "Unknown". */
  lemma NumberTextIsDigits(n: int)
    ensures Num(n).Render() != "Unknown"
  {
    var r := Num(n).Render();
    if n >= 0 {
      assert AllDigits(r);
      assert !IsDigit(r[0]) ==> r != "Unknown";
      if r == "Unknown" { assert IsDigit(r[0]); }
    } else {
      assert r[0] == '-';
    }
  }
}

=== FILE: zoom.dfy ===
/** The zoom handler shared by the d3 globes (GlobeAdvisory, GlobeResults,
    GlobeResultsCard, GlobeVisa): the projection scale is the zoom factor
    times a third of the width, clamped between 100 and half the width. */
module Zoom {

  function Max(a: real, b: real): real {
    if a >= b then a else b
  }

  function Min(a: real, b: real): real {
    if a <= b then a else b
  }

  /** The unclamped scale `event.transform.k * (width / 3)`. */
  function Zoomed(width: real, k: real): real {
    k * (width / 3.0)
  }

  /** `Math.max(100, Math.min(width / 2, k * (width / 3)))`. */
  function ZoomScale(width: real, k: real): (scale: real)
    ensures 100.0 <= scale
    ensures width >= 200.0 ==> scale <= width / 2.0
    ensures width < 200.0 ==> scale == 100.0
    ensures 100.0 <= Zoomed(width, k) <= width / 2.0 ==> scale == Zoomed(width, k)
    ensures Zoomed(width, k) >= width / 2.0 >= 100.0 ==> scale == width / 2.0
    ensures Zoomed(width, k) <= 100.0 ==> scale == 100.0
  {
    Max(100.0, Min(width / 2.0, Zoomed(width, k)))
  }

  lemma ZoomedMonotone(width: real, k1: real, k2: real)
    requires width >= 0.0 && k1 <= k2
    ensures Zoomed(width, k1) <= Zoomed(width, k2)
  {
    var third := width / 3.0;
    assert (k2 - k1) * third >= 0.0;
  }

  /** Zooming in never shrinks the globe. */
  lemma ZoomScaleMonotone(width: real, k1: real, k2: real)
    requires width >= 0.0 && k1 <= k2
    ensures ZoomScale(width, k1) <= ZoomScale(width, k2)
  {
    ZoomedMonotone(width, k1, k2);
  }
}
